=== FILE: README.md ===
# kujap.com notice scraper — a Dafny model of its string logic

`type-c/jap.ts` scrapes the notice boards of kujap.com in four steps:

1. It obtains a PHP session token.
2. It fetches a listing page and harvests the article links from it.
3. It parses each article page into a `NoCategoryNoticeInfo` record (`types.ts:10-17`) holding title, date, writer, content, url and category.
4. It labels the record with a category.

With the network removed, what is left is deterministic text processing. That text processing is what this project models and proves things about.

| file | module | contents |
|---|---|---|
| `outcome.dfy` | `Outcome` | `Option`, `Result` and `Failure`. There is one `Failure` value per `throw` of the source, so thrown errors become returned values. |
| `text.dfy` | `Text` | Prefix and substring facts, and JavaScript's `\s` and line-terminator classes. Also `includes`, one-character `replace` and `split(" ")[0]`, plus how a page number is rendered in a template literal and read back. |
| `pattern.dfy` | `Pattern` | The regular expressions of the scraper, which all have a literal-marker shape: a fixed prefix, a lazy middle from one character class, and a fixed suffix. This module gives ECMAScript's leftmost, shortest-middle semantics for `match`, `match` with `g`, `replace`, and a global `replace` driven by a head matcher. |
| `urlencoding.dfy` | `UrlEncoding` | `isNonASCII`, `encodeEUC_KR`, `customURLEncode` and the reference `encodeURIComponent` function of ECMA-262. Also percent-encoding by triplets as in section 2.1 of RFC 3986, and decoders for both forms. |
| `board.dfy` | `Board` | The category → board-id table, the session and listing URLs, the article-link harvester, and the session-token extractor. |
| `article.dfy` | `Article` | The title, date and writer extractors, the title cleanup, the attachment-link rewriter `convertDownloadPath`, and `getContent`/`getFile`. Also `parseArticle`, and the classification and record completion of `fetchJapNotices`. |

Two functions the core calls live outside it, so they are parameters:
- `convertRelativePaths` comes from `utils.ts`, which is not part of this model. It is the parameter `relativize: (string, string) -> string`.
- The EUC-KR code table comes from the `iconv-lite` library. It is the parameter `eucKr: char -> seq<Byte>`.

Every property is proved for all choices of these two functions.

Behaviours of the code that the model keeps as written:
- **Title cleanup.** The code removes only the first whitespace run of two or more characters, plus an `&nbsp` (without `;`) right after it. It then removes only the first `;`, which is often the one that ended that `&nbsp;`. Any later runs and semicolons stay.
- **Date.** The code splits on a plain space only; a tab or a non-breaking space does not end the date.
- **Non-empty fields.** The fields of a parsed record are not guaranteed to be non-empty. A date cell that begins with a space gives an empty date, and a title cell holding only `;` gives an empty title. The contracts state what the code guarantees: the regex captures themselves are non-empty.
- **Unknown category code.** The code renders the text `undefined` into the listing URL (`Board.BoardSegment`) instead of failing early.

## Model

| member | source | states |
|---|---|---|
| `Text.Includes` | type-c/jap.ts:73 | `includes` is true exactly when the needle occurs at some index of the title |
| `Text.RemoveFirst` | type-c/jap.ts:111 | `replace(";", "")` removes exactly the first `;`, and only it; without a `;` the text is unchanged |
| `Text.BeforeSpace` | type-c/jap.ts:123 | `split(" ")[0]` is a space-free prefix of its input, followed in the input by a space or by nothing |
| `Text.Decimal` | type-c/jap.ts:32 | a page number is rendered as a minus sign exactly when it is negative, then decimal digits without a leading zero (`0` alone for zero) |
| `Text.DigitsRoundTrip` | type-c/jap.ts:32 | the decimal digits of a natural number parse back to that number |
| `Text.NegativeRoundTrip` | type-c/jap.ts:32 | a negative page number, rendered with its minus sign, reads back as itself |
| `Text.NonNegativeRoundTrip` | type-c/jap.ts:32 | a non-negative page number's digits read back as itself |
| `Text.DecimalRoundTrip` | type-c/jap.ts:32 | the page number written into the listing URL reads back as the same integer |
| `Pattern.FirstMatch` | type-c/jap.ts:108-110 | a non-`g` `match` reports a genuine match with the shortest middle and no match starting earlier; it fails exactly when the pattern occurs nowhere |
| `Pattern.AllMatches` | type-c/jap.ts:44-45 | a `g` `match` reports genuine matches, left to right and non-overlapping, with no match starting in any skipped stretch; it is empty exactly when the pattern occurs nowhere |
| `Pattern.ReplaceFirst` | type-c/jap.ts:145-148 | a non-`g` `replace` rewrites exactly the first match and keeps the text before and after it; without a match the text is unchanged |
| `Pattern.ReplaceEach` | type-c/jap.ts:191-199 | a global `replace` leaves text in which no match starts unchanged |
| `Pattern.ReplaceEachCopiesInertPrefix` | type-c/jap.ts:191-199 | text in which no match starts is copied through, and the scan then proceeds as on the remainder alone |
| `Pattern.ReplaceEachNeverLonger` | type-c/jap.ts:199 | a global `replace` whose replacements are never longer than what they replace never lengthens the text |
| `Pattern.ExcludedCloserIsUnique` | type-c/jap.ts:192 | `[^']+` followed by `'` has one possible length, so greedy and lazy matching agree for the anchor pattern and for `<img[^>]*>` |
| `Pattern.ShortestCapture` | type-c/jap.ts:97 | a lazy capture contains no earlier occurrence of the suffix past its minimum length |
| `Pattern.CloseFrom` | type-c/jap.ts:97 | the lazy middle search returns the shortest admissible middle length at or above its start, or reports that none closes |
| `Pattern.MatchAt` | type-c/jap.ts:97 | at one position, the pattern matches exactly when a middle closes it, and the reported middle is the shortest |
| `Pattern.FindFrom` | type-c/jap.ts:97 | the search reports the leftmost match at or after its start position, or that none starts there or later |
| `Pattern.MatchesFrom` | type-c/jap.ts:44-45 | the global search from a position yields genuine, ordered, non-overlapping matches with nothing skipped |
| `UrlEncoding.EscapeBytes` | type-c/jap.ts:207-212 | `encodeEUC_KR` writes only `%` and uppercase hexadecimal digits, and starts with `%` for a non-empty byte string |
| `UrlEncoding.ShortHex` | type-c/jap.ts:210 | `byte.toString(16).toUpperCase()` is one digit exactly below 0x10 and otherwise two without a leading zero, and the digits read back as the byte's value |
| `UrlEncoding.DecodeShortGroup` | type-c/jap.ts:210 | a byte below 0x10 is written as `%` and one digit, and that group decodes to the byte in front of whatever the following groups decode to |
| `UrlEncoding.DecodeLongGroup` | type-c/jap.ts:210 | a byte of at least 0x10 is written as `%` and two digits, and that group decodes to the byte in front of whatever the following groups decode to |
| `UrlEncoding.EscapeBytesRoundTrip` | type-c/jap.ts:210 | the unpadded `%`-groups decode back to exactly the EUC-KR bytes |
| `UrlEncoding.EscapeBytesAreTriplets` | type-c/jap.ts:210 | when every byte is at least 0x10, the unpadded groups are exactly RFC 3986 triplets |
| `UrlEncoding.PctRoundTrip` | type-c/jap.ts:210 | RFC 3986 triplets, the form the groups take for bytes of at least 0x10, decode back to their bytes |
| `UrlEncoding.DecodeTriplet` | type-c/jap.ts:210 | one RFC 3986 triplet decodes to its byte in front of whatever the following triplets decode to |
| `UrlEncoding.EncodeUriComponent` | type-c/jap.ts:220 | `encodeURIComponent` outputs only unreserved characters and `%` |
| `UrlEncoding.Utf8` | type-c/jap.ts:220 | an ASCII code point is one byte; any other is two to four bytes, each at least 0x80 |
| `UrlEncoding.EncodeChar` | type-c/jap.ts:217-221 | one character's encoding consists only of unreserved characters and `%` |
| `UrlEncoding.IsNonAscii` | type-c/jap.ts:203-205 | `charCodeAt(0) > 127` holds exactly for the characters UTF-8 writes with more than one byte |
| `UrlEncoding.CustomUrlEncode` | type-c/jap.ts:214-224 | the encoded file name consists only of unreserved characters and `%`, so it cannot break out of the `file_nm` query parameter |
| `UrlEncoding.CustomUrlEncodeConcat` | type-c/jap.ts:214-224 | the encoding works code point by code point: it maps concatenation to concatenation |
| `UrlEncoding.AsciiIsEncodeUriComponent` | type-c/jap.ts:216-221 | on pure-ASCII input the result is exactly `encodeURIComponent`, whatever the EUC-KR table |
| `UrlEncoding.NonAsciiCharIsEucKrEscaped` | type-c/jap.ts:203-212 | a non-ASCII code point becomes one `%` group per EUC-KR byte, and the groups decode back to exactly the table's bytes (as triplets when the bytes are at least 0x10) |
| `Board.BoardId` | type-c/jap.ts:24-28 | the `catenum` table has an id exactly for codes 1, 2 and 3, and each id is a non-empty string of digits |
| `Board.BoardSegment` | type-c/jap.ts:24-30 | the URL segment is `undefined` exactly when the code has no board id; it never holds `&` or `#` |
| `Board.SessionUrl` | type-c/jap.ts:29-30 | `subUrl` extends the listing base by a non-empty board segment that cannot start another query parameter or a fragment |
| `Board.ListUrl` | type-c/jap.ts:24-32 | the paged listing URL extends the board's session URL; codes 1, 2 and 3 request boards `005003001`, `005003002` and `005008`, followed by `&pagemove=GOTO&pageno=` and the page number |
| `Board.PageOfOwnBoard` | type-c/jap.ts:24-32 | after a board's own id and the paging query, the rest of the URL is read as the page number |
| `Board.PageOfOtherBoard` | type-c/jap.ts:24-28 | the three board ids are told apart: no board's query shape matches another board's URL |
| `Board.ListUrlRoundTrip` | type-c/jap.ts:24-32 | for codes 1-3 the listing URL determines both the category code and the page number |
| `Board.ListUrlInjective` | type-c/jap.ts:24-32 | distinct (category, page) pairs request distinct listing pages |
| `Board.ArticleUrlOfMatch` | type-c/jap.ts:46 | every harvested link becomes the article base, then `bbs_content.html`, a non-empty line-free middle, then `type=B` |
| `Board.ArticleUrls` | type-c/jap.ts:44-46 | the harvest fails exactly when no link occurs; otherwise it is non-empty, holds only article URLs, and prefixes each global match in order |
| `Board.TokenOfMatch` | type-c/jap.ts:97-99 | the captured token is preceded by `PHPSESSID=`, followed by `;`, and holds no `;` past its first character |
| `Board.SessionId` | type-c/jap.ts:95-100 | a missing or empty cookie and a cookie without the token are distinct errors; otherwise the token is non-empty and line-free, preceded by the first `PHPSESSID=` that starts a match and followed by `;` |
| `Board.CookieHeader` | type-c/jap.ts:34 | the request header is `PHPSESSID=` followed by exactly the token; `Board.SessionIdOfIssuedCookie` reads that token back |
| `Board.IssuedCookieMatches` | type-c/jap.ts:97 | in a cookie beginning with `PHPSESSID=<token>;` the pattern matches at the head with exactly the token as its middle, and no shorter middle matches |
| `Board.SessionIdOfIssuedCookie` | type-c/jap.ts:95-100 | a cookie beginning with `PHPSESSID=<token>;` yields exactly that token |
| `Article.Cell` | type-c/jap.ts:108-110 | a field cell fails with its own error exactly when its marker cell is absent |
| `Article.DoubleSpaceFrom` | type-c/jap.ts:111 | finds the leftmost start of two consecutive `\s` characters, or reports that there is none |
| `Article.RunEnd` | type-c/jap.ts:111 | `\s{2,}` takes the whole whitespace run: it ends at a non-`\s` character or at the end |
| `Article.StripGap` | type-c/jap.ts:111 | removes the leftmost maximal run of two or more `\s` together with a directly following `&nbsp`, and nothing else; without such a run the text is unchanged |
| `Article.CleanTitle` | type-c/jap.ts:111 | the cleanup is the gap removal (the leftmost maximal run of two or more `\s` with a following `&nbsp`, when there is one) followed by the removal of exactly the first `;`; it removes at least two characters with a gap and at most one without, and leaves a title with neither unchanged |
| `Article.Title` | type-c/jap.ts:107-113 | fails exactly when the title cell is absent; otherwise the title is never longer than the capture, and equals it when the capture has no double whitespace and no `;` |
| `Article.Date` | type-c/jap.ts:119-124 | fails exactly when the date cell is absent; otherwise the date is a space-free prefix of the capture, ends at a space or the capture's end, and equals the whole capture when it holds no space |
| `Article.Writer` | type-c/jap.ts:130-135 | fails exactly when the writer cell is absent; otherwise the writer is the raw, non-empty, line-free capture that the cell encloses in the page |
| `Article.FieldSplit` | type-c/jap.ts:192 | a `([^']+)` field found before its closing quote is quote-free and non-empty, and splits the text into field, closer and rest |
| `Article.FieldBefore` | type-c/jap.ts:192 | a found field is quote-free and non-empty, and the text is the field, the closer and the rest |
| `Article.FieldBeforeOf` | type-c/jap.ts:192 | a quote-free field followed by its closer is read back exactly |
| `Article.DownFileAt` | type-c/jap.ts:192 | a recognised `fnDownFile` anchor has three quote-free, non-empty arguments and is a prefix of the text |
| `Article.DownFileRoundTrip` | type-c/jap.ts:192 | reading back an anchor built from three valid arguments yields those arguments |
| `Article.DownloadUrl` | type-c/jap.ts:194-196 | the URL starts with the download endpoint's base, and holds no `<` when the board and article ids hold none |
| `Article.DownloadAnchor` | type-c/jap.ts:197 | the replacement is `<a href="`, exactly the download URL, then `">` |
| `Article.ParamBefore` | type-c/jap.ts:196 | a query value read up to the first `&` holds no `&`, and the text is the value, the separator and the rest |
| `Article.ParamBeforeOf` | type-c/jap.ts:196 | a value without `&` followed by its separator is read back exactly |
| `Article.EncodedNameHasNoAmp` | type-c/jap.ts:194-196 | the encoded file name holds no `&`, so it cannot end the `file_nm` parameter early |
| `Article.DownloadUrlRoundTrip` | type-c/jap.ts:194-196 | when the ids hold no `&`, the URL's `bbs_cls_cd`, `cid` and `file_nm` read back as the board id, the article id and `customURLEncode` of the file name |
| `Article.AnchorsAtHead` | type-c/jap.ts:192 | any valid `fnDownFile` anchor at the head of a text is the one the pattern reads there |
| `Article.AnchorStep` | type-c/jap.ts:192-197 | one step of the anchor `replace` consumes exactly a valid anchor at the head and yields its download anchor, and it fires whenever such an anchor is there |
| `Article.ImgTagsAtHead` | type-c/jap.ts:199 | a complete `<img …>` tag at the head of a text matches the image pattern there |
| `Article.ImageStep` | type-c/jap.ts:199 | one step of the image `replace` removes exactly `<img` up to its first `>`, replaces it with nothing, and fires whenever a complete tag is at the head |
| `Article.NoAnchorHeads` | type-c/jap.ts:192 | where no `<a` begins, the anchor pattern matches nowhere |
| `Article.NoImageHeads` | type-c/jap.ts:199 | where no `<i` begins, the image pattern matches nowhere |
| `Article.RewriteAnchors` | type-c/jap.ts:191-198 | the first `replace` leaves text in which no `<a` begins unchanged |
| `Article.StripImages` | type-c/jap.ts:199 | the second `replace` never lengthens the text, and leaves text in which no `<i` begins unchanged |
| `Article.ConvertDownloadPath` | type-c/jap.ts:190-200 | `convertDownloadPath` leaves text with neither an `<a` nor an `<i` in it unchanged; `Article.ConvertAttachmentItem` gives its result on an attachment item |
| `Article.AnchorNeedsOpen` | type-c/jap.ts:192 | the anchor rule cannot start where the text does not begin with `<a` |
| `Article.ImageNeedsTag` | type-c/jap.ts:199 | the image rule cannot start where the text does not begin with `<i` |
| `Article.AnchorRewritten` | type-c/jap.ts:191-198 | each `fnDownFile` anchor becomes `<a href="…download.html?bbs_cls_cd=x&cid=y&file_nm=customURLEncode(z)&con_flg=Y&home_id=">`, and the scan carries on after it |
| `Article.ImageRemoved` | type-c/jap.ts:199 | a complete `<img …>` tag is dropped without a trace |
| `Article.TagFreePrefixKeptByAnchors` | type-c/jap.ts:191-198 | text without `<` passes the anchor rewrite unchanged |
| `Article.TagFreePrefixKeptByImages` | type-c/jap.ts:199 | text without `<` passes the image removal unchanged |
| `Article.TagFreeTextIsFixed` | type-c/jap.ts:191-199 | text without `<` is a fixed point of both rewrites |
| `Article.InertHeadKeptByAnchors` | type-c/jap.ts:191-198 | a tag that is not an `<a` tag, followed by tag-free text, passes the anchor rewrite unchanged and the scan resumes after it |
| `Article.InertHeadKeptByImages` | type-c/jap.ts:199 | a tag that is not an `<i` tag, followed by tag-free text, passes the image removal unchanged and the scan resumes after it |
| `Article.DownloadBaseIsTagFree` | type-c/jap.ts:196 | the download endpoint's base URL contains no `<` |
| `Article.DownloadAnchorOpensOnce` | type-c/jap.ts:194-197 | a rewritten anchor is an `<a` tag with no further `<`, as long as the ids contain no `<` |
| `Article.DownloadAnchorKeptByImageRule` | type-c/jap.ts:197-199 | a rewritten anchor survives the image removal |
| `Article.RewriteItemAnchors` | type-c/jap.ts:191-198 | in an attachment item the anchor rewrite changes only the anchor |
| `Article.StripAfterAnchor` | type-c/jap.ts:199 | the icon tag after an anchor is removed and the surrounding text is kept |
| `Article.StripAroundInertTag` | type-c/jap.ts:199 | in tag-free text holding one non-image tag and one icon, the image removal drops only the icon |
| `Article.StripItemImages` | type-c/jap.ts:199 | after the anchor rewrite, the image removal drops only the icon |
| `Article.ConvertAttachmentItem` | type-c/jap.ts:190-200 | `convertDownloadPath` of text, anchor, text, icon, text is text, download link, text, text |
| `Article.FileSection` | type-c/jap.ts:156-167 | fails exactly when the region has no attachment block; otherwise it is the first block, converted |
| `Article.Content` | type-c/jap.ts:141-150 | a missing body region and a missing attachment block are distinct errors; otherwise content is the relativized region without its first block, followed by the converted block of the original region |
| `Article.FileBlockStartsAfterMarker` | type-c/jap.ts:142-146 | the attachment block cannot begin inside the body region's opening marker |
| `Article.RegionClosesOnce` | type-c/jap.ts:142 | past its marker and the first character of the lazy middle, the body region holds `</ul>` only at its very end |
| `Article.FileBlockBounds` | type-c/jap.ts:146 | an attachment block opens with `<u` and ends with `</ul>` at the position it was found |
| `Article.FileBlockEndsRegion` | type-c/jap.ts:142-157 | an attachment block found in the body region runs to the region's end |
| `Article.ContentConvertsFileBlockInPlace` | type-c/jap.ts:141-167 | when relativizing changes nothing, the content is the region with its attachment tail converted in place |
| `Article.ParseArticle` | type-c/jap.ts:173-184 | succeeds exactly when all four fields do; the first failing field (title, date, writer, content) is the error; on success the fields are the extractors' results and `url` and `category` are empty |
| `Article.MissingTitleFails` | type-c/jap.ts:107-110 | a page without the title cell yields `TitleNotFound` and no record |
| `Article.CategoryLabel` | type-c/jap.ts:62-67 | the `subcategory` table has a non-empty, space-free label exactly for codes 1, 2 and 3 |
| `Article.Category` | type-c/jap.ts:62-75 | code 3 is exactly `취업정보`; codes 1 and 2 are `학부`/`대학원` plus ` 장학` exactly when the title contains `장학`, else ` 공지`; any other code is an error |
| `Article.FetchNotice` | type-c/jap.ts:53-78 | a page error wins over a bad code; on success only `url` (set to the fetched URL) and `category` are filled in, and title, date, writer and content are the parsed ones |

## Left out

- Network I/O (`fetch`, `fetchWithError`, `Headers`, `credentials`, the promises). The page HTML and the `Set-Cookie` header are inputs instead. This is I/O with no behaviour of its own to state.
- `eucKrToUtf8`: `utils.ts` is not part of this model. The HTML is taken as already-decoded text.
- `convertRelativePaths`: `utils.ts` is not part of this model. It is the uninterpreted parameter `relativize`.
- The EUC-KR table of `iconv-lite`, an external library. It is the parameter `eucKr`, so the encoder's formatting is proved for every table.
- General regular expressions. Only the literal-marker shapes the scraper uses are modelled, with their ECMAScript matching semantics.
- Lone surrogates. A Dafny `char` is a Unicode scalar value, so a file name holding an unpaired UTF-16 surrogate cannot be expressed.
- Text.Decimal: renders every integer in plain decimal. JavaScript writes a magnitude of 10^21 or more in exponent form (`1e+21`), cannot hold integers beyond 2^53 exactly, and renders `-0` as `0`; the model covers none of these, because `page` is an unbounded integer here.
- Non-integer page numbers. `page` is an `int`; JavaScript would also render a fractional or `NaN` page into the URL.
- `NoticeInfo` and `KupidType` in `types.ts`: this code does not use them.
- Article.ConvertAttachmentItem: states the combined rewrite for one attachment item whose text, ids and icon attributes contain no `<`. Arbitrary HTML is covered step by step by `AnchorRewritten`, `ImageRemoved` and the tag-free lemmas rather than by one closed formula.
- Article.ContentConvertsFileBlockInPlace: assumes that relativizing leaves the region unchanged, because `convertRelativePaths` is not part of this model.
- Article.DownloadUrlRoundTrip: assumes the board and article ids hold no `&`. An id holding `&cid=` would make the query ambiguous to read back.
- Article.DownloadAnchorKeptByImageRule: assumes the board and article ids contain no `<`. An id holding `<img` would be stripped by the second `replace`.

=== FILE: article.dfy ===
/** The article side of the kujap.com scraper with the network removed:
    `parseArticle` and its field extractors over the decoded page HTML, the
    attachment-link rewriter `convertDownloadPath`, and the classification
    step of `fetchJapNotices` that completes the record.

    `convertRelativePaths` (a helper that is not part of this model) is a
    parameter `relativize`, and the EUC-KR code table is the parameter
    `eucKr` of the URL encoder. */
module Article {
  import opened Outcome
  import opened Text
  import opened Pattern
  import opened UrlEncoding

  /** `NoCategoryNoticeInfo`. */
  datatype Notice = Notice(
    title: string,
    date: string,
    writer: string,
    content: string,
    url: string,
    category: string)

  const Origin := "http://www.kujap.com"

  /** `/<td class='pd5t b' id='head'>(.+?)<\/td>/` */
  const TitleCell := Shape("<td class='pd5t b' id='head'>", "</td>", 1, NotLineTerminator)
  /** `/<td align='right' class='pd5'>(.+?)<\/td>/` */
  const DateCell := Shape("<td align='right' class='pd5'>", "</td>", 1, NotLineTerminator)
  /** `/<td class='small pd5 b letter'>(.+?)<\/td>/` */
  const WriterCell := Shape("<td class='small pd5 b letter'>", "</td>", 1, NotLineTerminator)
  /** `/<td class='pd10t'(.+?)<\/ul>/s` */
  const BodyRegion := Shape("<td class='pd10t'", "</ul>", 1, AnyChar)
  /** `/<ul id='file'>(.*?)<\/ul>/s` */
  const FileBlock := Shape("<ul id='file'>", "</ul>", 0, AnyChar)
  /** `/<img[^>]*>/g` */
  const ImgTag := Shape("<img", ">", 0, NotChar('>'))

  /** The capture group of the first match, or `missing`. */
  function Cell(shape: Shape, html: string, missing: Failure): (r: Result<string>)
    ensures r.Err? <==> !Occurs(shape, html)
    ensures r.Err? ==> r.error == missing
    ensures r.Ok? ==> r.value == FirstMatch(shape, html).value.capture
  {
    match FirstMatch(shape, html)
    case None => Err(missing)
    case Some(m) => Ok(m.capture)
  }

  // ---------------------------------------------------------------- title

  predicate DoubleSpaceAt(s: string, i: int) {
    0 <= i && i + 1 < |s| && IsWhitespace(s[i]) && IsWhitespace(s[i + 1])
  }

  ghost predicate HasDoubleSpace(s: string) {
    exists i :: DoubleSpaceAt(s, i)
  }

  function DoubleSpaceFrom(s: string, i: nat): (r: Option<nat>)
    requires i <= |s|
    ensures r.Some? ==> i <= r.value && DoubleSpaceAt(s, r.value)
    ensures r.Some? ==> forall j :: i <= j < r.value ==> !DoubleSpaceAt(s, j)
    ensures r.None? ==> forall j :: i <= j ==> !DoubleSpaceAt(s, j)
    decreases |s| - i
  {
    if i + 1 >= |s| then None
    else if IsWhitespace(s[i]) && IsWhitespace(s[i + 1]) then Some(i)
    else DoubleSpaceFrom(s, i + 1)
  }

  /** End of the longest whitespace run starting at `i` (`\s{2,}` is greedy). */
  function RunEnd(s: string, i: nat): (e: nat)
    requires i <= |s|
    ensures i <= e <= |s|
    ensures forall j :: i <= j < e ==> IsWhitespace(s[j])
    ensures e == |s| || !IsWhitespace(s[e])
    decreases |s| - i
  {
    if i == |s| || !IsWhitespace(s[i]) then i else RunEnd(s, i + 1)
  }

  /** `r` is `s` without the first whitespace run of length two or more
      (taken whole) and an `&nbsp` right after it. */
  ghost predicate GapRemoved(s: string, i: int, e: int, r: string) {
    && 0 <= i && i + 2 <= e <= |s|
    && (forall j :: 0 <= j < i ==> !DoubleSpaceAt(s, j))
    && (forall j :: i <= j < e ==> IsWhitespace(s[j]))
    && (e == |s| || !IsWhitespace(s[e]))
    && r == s[..i] + (if StartsWith(s[e..], "&nbsp") then s[e + 5..] else s[e..])
  }

  /** `.replace(/\s{2,}(&nbsp)?/, "")` */
  function StripGap(s: string): (r: string)
    ensures !HasDoubleSpace(s) ==> r == s
    ensures HasDoubleSpace(s) ==> |r| <= |s| - 2 && exists i, e :: GapRemoved(s, i, e, r)
  {
    match DoubleSpaceFrom(s, 0)
    case None => s
    case Some(i) =>
      var e := RunEnd(s, i);
      var r := s[..i] + (if StartsWith(s[e..], "&nbsp") then s[e + 5..] else s[e..]);
      assert GapRemoved(s, i, e, r);
      r
  }

  /** The one-shot cleanup of `getTitle`: drop the first double-whitespace
      run (with an `&nbsp` after it), then the first `;`. It removes at most
      that gap and one `;`: nothing else of the captured cell changes. */
  function CleanTitle(raw: string): (r: string)
    ensures !HasDoubleSpace(raw) ==> |raw| - 1 <= |r| <= |raw|
    ensures !HasDoubleSpace(raw) && ';' in raw ==> |r| == |raw| - 1
    ensures HasDoubleSpace(raw) ==> |r| <= |raw| - 2
    ensures ';' !in raw && !HasDoubleSpace(raw) ==> r == raw
    ensures !HasDoubleSpace(raw) ==> r == RemoveFirst(raw, ';')
    ensures HasDoubleSpace(raw) ==> exists i, e, g :: GapRemoved(raw, i, e, g) && r == RemoveFirst(g, ';')
  {
    RemoveFirst(StripGap(raw), ';')
  }

  /** `getTitle`. */
  function Title(html: string): (r: Result<string>)
    ensures r.Err? <==> !Occurs(TitleCell, html)
    ensures r.Err? ==> r.error == TitleNotFound
    ensures r.Ok? ==> |r.value| <= |FirstMatch(TitleCell, html).value.capture|
    ensures r.Ok? ==>
      var raw := FirstMatch(TitleCell, html).value.capture;
      !HasDoubleSpace(raw) && ';' !in raw ==> r.value == raw
    ensures r.Ok? ==> r.value == CleanTitle(FirstMatch(TitleCell, html).value.capture)
  {
    var raw :- Cell(TitleCell, html, TitleNotFound);
    Ok(CleanTitle(raw))
  }

  // ---------------------------------------------------------------- date and writer

  /** `getDate`: the captured cell up to its first space. */
  function Date(html: string): (r: Result<string>)
    ensures r.Err? <==> !Occurs(DateCell, html)
    ensures r.Err? ==> r.error == DateNotFound
    ensures r.Ok? ==>
      var raw := FirstMatch(DateCell, html).value.capture;
      && ' ' !in r.value
      && StartsWith(raw, r.value)
      && (|r.value| < |raw| ==> raw[|r.value|] == ' ')
      && (' ' !in raw ==> r.value == raw)
  {
    var raw :- Cell(DateCell, html, DateNotFound);
    var d := BeforeSpace(raw);
    assert ' ' !in raw ==> d == raw by {
      if ' ' !in raw {
        assert raw[..|raw|] == raw;
      }
    }
    Ok(d)
  }

  /** `getWriter`: the raw text of the first writer cell. */
  function Writer(html: string): (r: Result<string>)
    ensures r.Err? <==> !Occurs(WriterCell, html)
    ensures r.Err? ==> r.error == WriterNotFound
    ensures r.Ok? ==> r.value == FirstMatch(WriterCell, html).value.capture
    ensures r.Ok? ==> |r.value| > 0 && forall i :: 0 <= i < |r.value| ==> !IsLineTerminator(r.value[i])
    ensures r.Ok? ==> exists i :: OccursAt(html, WriterCell.prefix + r.value + "</td>", i)
  {
    var w :- Cell(WriterCell, html, WriterNotFound);
    var m := FirstMatch(WriterCell, html).value;
    assert OccursAt(html, m.whole, m.start);
    Ok(w)
  }

  // ---------------------------------------------------------------- download links

  const AnchorOpen := "<a href=\"javascript:fnDownFile('"
  const Separator := "','"
  const AnchorClose := "');\">"
  // Built from pieces: the verifier checks which characters a short literal
  // holds much more cheaply than a long one.
  const DownloadBase := Origin + "/contents/common/popup/" + "download.html?bbs_cls_cd="

  /** `([^']+)` followed by `close`. */
  function QuotedField(close: string): Shape {
    Shape("", close, 1, NotChar('\''))
  }

  /** The three arguments of `fnDownFile('board','cid','fileName')`. */
  datatype DownFile = DownFile(board: string, cid: string, fileName: string)

  predicate IsField(x: string) {
    |x| > 0 && '\'' !in x
  }

  predicate ValidDownFile(d: DownFile) {
    IsField(d.board) && IsField(d.cid) && IsField(d.fileName)
  }

  function AnchorText(d: DownFile): string {
    AnchorOpen + d.board + Separator + d.cid + Separator + d.fileName + AnchorClose
  }

  lemma FieldSplit(close: string, t: string, k: int)
    requires Closes(QuotedField(close), t, k)
    ensures IsField(t[..k]) && t == t[..k] + close + t[k + |close|..]
  {
    assert t[k..][..|close|] == t[k..k + |close|];
    assert forall j :: 0 <= j < k ==> t[..k][j] != '\'';
  }

  /** A quoted field `([^']+)` and the text after the `close` that ends it. */
  function FieldBefore(close: string, t: string): (r: Option<(string, string)>)
    requires |close| > 0 && close[0] == '\''
    ensures r.Some? ==> IsField(r.value.0) && t == r.value.0 + close + r.value.1
  {
    match CloseFrom(QuotedField(close), t, 0)
    case None => None
    case Some(k) =>
      FieldSplit(close, t, k);
      Some((t[..k], t[k + |close|..]))
  }

  /** A field cannot contain the quote that closes it, so it is read back
      exactly. */
  lemma FieldBeforeOf(close: string, x: string, rest: string)
    requires |close| > 0 && close[0] == '\'' && IsField(x)
    ensures FieldBefore(close, x + close + rest) == Some((x, rest))
  {
    var sh := QuotedField(close);
    var t := x + close + rest;
    assert t[..|x|] == x;
    assert t[|x|..][..|close|] == close;
    assert Closes(sh, t, |x|);
    var k := CloseFrom(sh, t, 0).value;
    ExcludedCloserIsUnique(sh, t, k, |x|);
    assert t[|x| + |close|..] == rest;
  }

  lemma Regroup(p1: string, p2: string, p3: string, p4: string, p5: string, p6: string, p7: string, rest: string)
    ensures p1 + p2 + p3 + p4 + p5 + p6 + p7 + rest == p1 + (p2 + p3 + (p4 + p5 + (p6 + p7 + rest)))
  {
  }

  /** Matches `<a href="javascript:fnDownFile\('([^']+)','([^']+)','([^']+)'\);">`
      at the head of `t`. */
  function DownFileAt(t: string): (r: Option<DownFile>)
    ensures r.Some? ==> ValidDownFile(r.value) && StartsWith(t, AnchorText(r.value))
  {
    if !StartsWith(t, AnchorOpen) then None
    else
      var t1 := t[|AnchorOpen|..];
      assert t == AnchorOpen + t1;
      match FieldBefore(Separator, t1)
      case None => None
      case Some((board, t2)) =>
        match FieldBefore(Separator, t2)
        case None => None
        case Some((cid, t3)) =>
          match FieldBefore(AnchorClose, t3)
          case None => None
          case Some((fileName, rest)) =>
            var d := DownFile(board, cid, fileName);
            Regroup(AnchorOpen, board, Separator, cid, Separator, fileName, AnchorClose, rest);
            StartsWithConcat(AnchorText(d), rest);
            Some(d)
  }

  /** The anchor pattern recognises exactly the anchors it describes:
      reading an anchor back yields its three arguments. */
  lemma DownFileRoundTrip(d: DownFile, rest: string)
    requires ValidDownFile(d)
    ensures DownFileAt(AnchorText(d) + rest) == Some(d)
  {
    var t := AnchorText(d) + rest;
    var t3 := d.fileName + AnchorClose + rest;
    var t2 := d.cid + Separator + t3;
    var t1 := d.board + Separator + t2;
    assert t == AnchorOpen + t1;
    assert t[..|AnchorOpen|] == AnchorOpen && t[|AnchorOpen|..] == t1;
    FieldBeforeOf(Separator, d.board, t2);
    FieldBeforeOf(Separator, d.cid, t3);
    FieldBeforeOf(AnchorClose, d.fileName, rest);
  }

  /** The download endpoint's URL for one attachment. The encoded file name
      holds no `<`, so the URL holds one only if an id does. */
  function DownloadUrl(eucKr: char -> seq<Byte>, d: DownFile): (r: string)
    ensures StartsWith(r, DownloadBase)
    ensures '<' !in d.board && '<' !in d.cid ==> '<' !in r
  {
    var enc := CustomUrlEncode(eucKr, d.fileName);
    var r := DownloadBase + d.board + "&cid=" + d.cid + "&file_nm=" + enc + "&con_flg=Y&home_id=";
    StartsWithConcat(DownloadBase, d.board + "&cid=" + d.cid + "&file_nm=" + enc + "&con_flg=Y&home_id=");
    DownloadBaseIsTagFree();
    assert '<' !in "&cid=" && '<' !in "&file_nm=" && '<' !in "&con_flg=Y&home_id=";
    assert '<' !in enc;
    r
  }

  /** The plain anchor that replaces a `fnDownFile` anchor: it opens with
      `<a href="` and the download URL, and closes the attribute and tag. */
  function DownloadAnchor(eucKr: char -> seq<Byte>, d: DownFile): (r: string)
    ensures StartsWith(r, "<a href=\"" + DownloadBase)
    ensures |r| >= 11 && r[|r| - 2..] == "\">"
    ensures r[9..|r| - 2] == DownloadUrl(eucKr, d)
  {
    var url := DownloadUrl(eucKr, d);
    var r := "<a href=\"" + url + "\">";
    assert r[..9 + |DownloadBase|] == "<a href=\"" + url[..|DownloadBase|];
    assert r[9..|r| - 2] == url;
    r
  }

  /** The value of one query parameter: the text up to the first `&`, which
      must begin `sep`; also returns what follows `sep`. */
  function ParamBefore(sep: string, t: string): (r: Option<(string, string)>)
    ensures r.Some? ==> '&' !in r.value.0 && t == r.value.0 + sep + r.value.1
  {
    var i := FirstIndex(t, '&');
    if StartsWith(t[i..], sep) then
      assert t == t[..i] + t[i..][..|sep|] + t[i + |sep|..];
      Some((t[..i], t[i + |sep|..]))
    else None
  }

  /** A value without `&` followed by its separator is read back exactly. */
  lemma ParamBeforeOf(sep: string, x: string, rest: string)
    requires |sep| > 0 && sep[0] == '&' && '&' !in x
    ensures ParamBefore(sep, x + sep + rest) == Some((x, rest))
  {
    var t := x + sep + rest;
    var i := FirstIndex(t, '&');
    assert t[|x|] == '&';
    assert forall j :: 0 <= j < |x| ==> t[j] == x[j];
    assert t[i..][..|sep|] == sep;
    assert t[..i] == x && t[i + |sep|..] == rest;
  }

  /** Reads `bbs_cls_cd`, `cid` and `file_nm` back out of a download URL. */
  function DownloadQuery(u: string): Option<(string, string, string)> {
    if !StartsWith(u, DownloadBase) then None
    else
      match ParamBefore("&cid=", u[|DownloadBase|..])
      case None => None
      case Some((board, t2)) =>
        match ParamBefore("&file_nm=", t2)
        case None => None
        case Some((cid, t3)) =>
          match ParamBefore("&con_flg=Y&home_id=", t3)
          case None => None
          case Some((name, rest)) => if rest == "" then Some((board, cid, name)) else None
  }

  lemma EncodedNameHasNoAmp(eucKr: char -> seq<Byte>, name: string)
    ensures '&' !in CustomUrlEncode(eucKr, name)
  {
    var enc := CustomUrlEncode(eucKr, name);
    forall i | 0 <= i < |enc| ensures enc[i] != '&' {
      assert IsUriUnreserved(enc[i]) || enc[i] == '%';
    }
  }

  /** The download URL carries the board id as `bbs_cls_cd`, the article id
      as `cid` and the EUC-KR encoding of the file name as `file_nm`, and
      each can be read back from it when the ids hold no `&`. */
  lemma DownloadUrlRoundTrip(eucKr: char -> seq<Byte>, d: DownFile)
    requires '&' !in d.board && '&' !in d.cid
    ensures DownloadQuery(DownloadUrl(eucKr, d)) == Some((d.board, d.cid, CustomUrlEncode(eucKr, d.fileName)))
  {
    var enc := CustomUrlEncode(eucKr, d.fileName);
    var u := DownloadUrl(eucKr, d);
    var t3 := enc + "&con_flg=Y&home_id=" + "";
    var t2 := d.cid + "&file_nm=" + t3;
    var t1 := d.board + "&cid=" + t2;
    Regroup(DownloadBase, d.board, "&cid=", d.cid, "&file_nm=", enc, "&con_flg=Y&home_id=", "");
    assert u + "" == u;
    StartsWithConcat(DownloadBase, t1);
    assert u[|DownloadBase|..] == t1;
    EncodedNameHasNoAmp(eucKr, d.fileName);
    ParamBeforeOf("&cid=", d.board, t2);
    ParamBeforeOf("&file_nm=", d.cid, t3);
    ParamBeforeOf("&con_flg=Y&home_id=", enc, "");
  }

  /** Every valid anchor at the head of `t` is the one `DownFileAt` reads. */
  lemma AnchorsAtHead(t: string)
    ensures forall d :: ValidDownFile(d) && StartsWith(t, AnchorText(d)) ==> DownFileAt(t) == Some(d)
  {
    forall d | ValidDownFile(d) && StartsWith(t, AnchorText(d)) ensures DownFileAt(t) == Some(d) {
      var rest := t[|AnchorText(d)|..];
      assert t == AnchorText(d) + rest;
      DownFileRoundTrip(d, rest);
    }
  }

  /** One match of the anchor pattern at the head of `t`: it consumes exactly
      a valid anchor and yields its download anchor; any valid anchor at the
      head is matched. */
  function AnchorStep(eucKr: char -> seq<Byte>, t: string): (r: Option<Step>)
    ensures r.Some? ==> 0 < r.value.length <= |t|
    ensures r.Some? ==>
      exists d :: ValidDownFile(d) && StartsWith(t, AnchorText(d)) && r.value == Step(|AnchorText(d)|, DownloadAnchor(eucKr, d))
    ensures forall d :: ValidDownFile(d) && StartsWith(t, AnchorText(d)) ==>
      r == Some(Step(|AnchorText(d)|, DownloadAnchor(eucKr, d)))
  {
    AnchorsAtHead(t);
    match DownFileAt(t)
    case None => None
    case Some(d) => Some(Step(|AnchorText(d)|, DownloadAnchor(eucKr, d)))
  }

  function AnchorRule(eucKr: char -> seq<Byte>): string -> Option<Step> {
    t => AnchorStep(eucKr, t)
  }

  /** Every complete `<img …>` tag at the head of `t` matches the image
      pattern there. */
  lemma ImgTagsAtHead(t: string)
    ensures forall m :: '>' !in m && StartsWith(t, ImgTagText(m)) ==> MatchesAt(ImgTag, t, 0, |m|)
  {
    forall m | '>' !in m && StartsWith(t, ImgTagText(m)) ensures MatchesAt(ImgTag, t, 0, |m|) {
      var w := ImgTagText(m);
      var u := t[4..];
      assert t[..|w|] == w;
      assert t[0..] == t && t[..4] == w[..4] == "<img";
      assert u[..|m|] == t[4..4 + |m|] == w[4..4 + |m|] == m;
      assert u[|m|..][..1] == t[4 + |m|..5 + |m|] == w[4 + |m|..] == ">";
    }
  }

  /** One match of `<img[^>]*>` at the head of `t`: it removes exactly one
      tag, `<img` up to the first `>`; a complete tag at the head is always
      matched. */
  function ImageStep(t: string): (r: Option<Step>)
    ensures r.Some? ==> 0 < r.value.length <= |t| && r.value.text == ""
    ensures r.Some? ==> StartsWith(t, "<img") && r.value.length >= 5 && t[r.value.length - 1] == '>'
    ensures r.Some? ==> forall i :: 4 <= i < r.value.length - 1 ==> t[i] != '>'
    ensures r.None? ==> forall m :: '>' !in m ==> !StartsWith(t, ImgTagText(m))
  {
    ImgTagsAtHead(t);
    match MatchAt(ImgTag, t, 0)
    case None => None
    case Some(k) =>
      var u := t[4..];
      assert t[0..] == t;
      assert u[k..][..1] == ">";
      assert forall i :: 4 <= i < 4 + k ==> u[..k][i - 4] == t[i];
      Some(Step(4 + k + 1, ""))
  }

  /** A `<` followed by `c` at position `i`: where a tag named with `c`
      could begin. */
  predicate TagOpensAt(s: string, i: int, c: char) {
    0 <= i && i + 1 < |s| && s[i] == '<' && s[i + 1] == c
  }

  /** No tag named with `c` begins anywhere in `s`. */
  predicate NoTagOpens(s: string, c: char) {
    forall i :: 0 <= i < |s| ==> !TagOpensAt(s, i, c)
  }

  /** Where no `<a` begins, the anchor rule matches nowhere. */
  lemma NoAnchorHeads(eucKr: char -> seq<Byte>, html: string)
    ensures NoTagOpens(html, 'a') ==>
      forall i :: 0 <= i < |html| ==> AnchorRule(eucKr)(html[i..]).None?
  {
    forall i | 0 <= i < |html| && !TagOpensAt(html, i, 'a') ensures AnchorRule(eucKr)(html[i..]).None? {
      var t := html[i..];
      assert t[0] == html[i];
      if |t| >= 2 {
        assert t[1] == html[i + 1];
      }
      AnchorNeedsOpen(eucKr, t);
    }
  }

  /** Where no `<i` begins, the image rule matches nowhere. */
  lemma NoImageHeads(html: string)
    ensures NoTagOpens(html, 'i') ==>
      forall i :: 0 <= i < |html| ==> ImageStep(html[i..]).None?
  {
    forall i | 0 <= i < |html| && !TagOpensAt(html, i, 'i') ensures ImageStep(html[i..]).None? {
      var t := html[i..];
      assert t[0] == html[i];
      if |t| >= 2 {
        assert t[1] == html[i + 1];
      }
      ImageNeedsTag(t);
    }
  }

  /** The first `replace` of `convertDownloadPath`. Text in which no `<a`
      begins comes back unchanged. */
  function RewriteAnchors(eucKr: char -> seq<Byte>, html: string): (r: string)
    ensures NoTagOpens(html, 'a') ==> r == html
  {
    NoAnchorHeads(eucKr, html);
    ReplaceEach(html, AnchorRule(eucKr))
  }

  /** The second `replace` of `convertDownloadPath`. It only ever removes
      text, and text in which no `<i` begins comes back unchanged. */
  function StripImages(html: string): (r: string)
    ensures |r| <= |html|
    ensures NoTagOpens(html, 'i') ==> r == html
  {
    NoImageHeads(html);
    ReplaceEachNeverLonger(html, ImageStep);
    ReplaceEach(html, ImageStep)
  }

  /** `convertDownloadPath`. Text with neither an `<a` nor an `<i` in it
      comes back unchanged. */
  function ConvertDownloadPath(eucKr: char -> seq<Byte>, html: string): (r: string)
    ensures NoTagOpens(html, 'a') && NoTagOpens(html, 'i') ==> r == html
  {
    StripImages(RewriteAnchors(eucKr, html))
  }

  lemma AnchorNeedsOpen(eucKr: char -> seq<Byte>, t: string)
    requires |t| < 2 || t[0] != '<' || t[1] != 'a'
    ensures AnchorRule(eucKr)(t).None?
  {
    assert !StartsWith(t, AnchorOpen);
  }

  lemma ImageNeedsTag(t: string)
    requires |t| < 2 || t[0] != '<' || t[1] != 'i'
    ensures ImageStep(t).None?
  {
    assert t[0..] == t;
  }

  /** Each `fnDownFile` anchor is replaced by a plain anchor to the download
      endpoint, with the file name encoded by `customURLEncode`. */
  lemma AnchorRewritten(eucKr: char -> seq<Byte>, d: DownFile, rest: string)
    requires ValidDownFile(d)
    ensures RewriteAnchors(eucKr, AnchorText(d) + rest) == DownloadAnchor(eucKr, d) + RewriteAnchors(eucKr, rest)
  {
    var t := AnchorText(d) + rest;
    DownFileRoundTrip(d, rest);
    assert AnchorRule(eucKr)(t) == Some(Step(|AnchorText(d)|, DownloadAnchor(eucKr, d)));
    assert t[|AnchorText(d)|..] == rest;
  }

  /** A complete `<img …>` tag is dropped without a trace. */
  lemma ImageRemoved(m: string, rest: string)
    requires '>' !in m
    ensures StripImages(ImgTagText(m) + rest) == StripImages(rest)
  {
    var t := ImgTagText(m) + rest;
    assert t[0..] == t && t[..4] == "<img";
    var u := t[4..];
    assert u == m + ">" + rest;
    assert u[..|m|] == m;
    assert u[|m|..][..1] == ">";
    assert Closes(ImgTag, u, |m|);
    var k := CloseFrom(ImgTag, u, 0).value;
    ExcludedCloserIsUnique(ImgTag, u, k, |m|);
    assert ImageStep(t) == Some(Step(4 + |m| + 1, ""));
    assert t[4 + |m| + 1..] == rest;
  }

  /** Where the anchor rule cannot start (no `<`), text passes through
      unchanged. */
  lemma TagFreePrefixKeptByAnchors(eucKr: char -> seq<Byte>, a: string, b: string)
    requires '<' !in a
    ensures RewriteAnchors(eucKr, a + b) == a + RewriteAnchors(eucKr, b)
  {
    forall i | 0 <= i < |a| ensures AnchorRule(eucKr)((a + b)[i..]).None? {
      assert (a + b)[i..][0] == a[i];
      AnchorNeedsOpen(eucKr, (a + b)[i..]);
    }
    ReplaceEachCopiesInertPrefix(a, b, AnchorRule(eucKr));
  }

  /** Where the image rule cannot start (no `<`), text passes through
      unchanged. */
  lemma TagFreePrefixKeptByImages(a: string, b: string)
    requires '<' !in a
    ensures StripImages(a + b) == a + StripImages(b)
  {
    forall i | 0 <= i < |a| ensures ImageStep((a + b)[i..]).None? {
      assert (a + b)[i..][0] == a[i];
      ImageNeedsTag((a + b)[i..]);
    }
    ReplaceEachCopiesInertPrefix(a, b, ImageStep);
  }

  /** Text with a `<` only at its head, not followed by `a`, passes the
      anchor rewrite unchanged. */
  lemma InertHeadKeptByAnchors(eucKr: char -> seq<Byte>, x: string, rest: string)
    requires |x| > 1 && x[1] != 'a' && '<' !in x[1..]
    ensures RewriteAnchors(eucKr, x + rest) == x + RewriteAnchors(eucKr, rest)
  {
    forall i | 0 <= i < |x| ensures AnchorRule(eucKr)((x + rest)[i..]).None? {
      var t := (x + rest)[i..];
      assert t[0] == x[i];
      if i == 0 {
        assert t[1] == x[1];
      } else {
        assert x[i] == x[1..][i - 1];
      }
      AnchorNeedsOpen(eucKr, t);
    }
    ReplaceEachCopiesInertPrefix(x, rest, AnchorRule(eucKr));
  }

  /** Text with a `<` only at its head, not followed by `i`, passes the
      image removal unchanged. */
  lemma InertHeadKeptByImages(x: string, rest: string)
    requires |x| > 1 && x[1] != 'i' && '<' !in x[1..]
    ensures StripImages(x + rest) == x + StripImages(rest)
  {
    forall i | 0 <= i < |x| ensures ImageStep((x + rest)[i..]).None? {
      var t := (x + rest)[i..];
      assert t[0] == x[i];
      if i == 0 {
        assert t[1] == x[1];
      } else {
        assert x[i] == x[1..][i - 1];
      }
      ImageNeedsTag(t);
    }
    ReplaceEachCopiesInertPrefix(x, rest, ImageStep);
  }

  /** The download endpoint's fixed base URL holds no `<`. */
  lemma DownloadBaseIsTagFree()
    ensures '<' !in DownloadBase
  {
    assert '<' !in Origin && '<' !in "/contents/common/popup/" && '<' !in "download.html?bbs_cls_cd=";
  }

  /** A rewritten anchor has its only `<` at its head, before `a`. */
  lemma DownloadAnchorOpensOnce(eucKr: char -> seq<Byte>, d: DownFile)
    requires '<' !in d.board && '<' !in d.cid
    ensures |DownloadAnchor(eucKr, d)| > 1
    ensures DownloadAnchor(eucKr, d)[1] == 'a'
    ensures '<' !in DownloadAnchor(eucKr, d)[1..]
  {
    var url := DownloadUrl(eucKr, d);
    var tail := "a href=\"" + url + "\">";
    assert '<' !in tail;
    assert DownloadAnchor(eucKr, d) == "<" + tail;
  }

  lemma DownloadAnchorKeptByImageRule(eucKr: char -> seq<Byte>, d: DownFile, rest: string)
    requires '<' !in d.board && '<' !in d.cid
    ensures StripImages(DownloadAnchor(eucKr, d) + rest) == DownloadAnchor(eucKr, d) + StripImages(rest)
  {
    DownloadAnchorOpensOnce(eucKr, d);
    InertHeadKeptByImages(DownloadAnchor(eucKr, d), rest);
  }

  /** `<img` + attributes + `>`. */
  function ImgTagText(m: string): string {
    "<img" + m + ">"
  }

  /** Text without `<` is left alone by both rules. */
  lemma TagFreeTextIsFixed(eucKr: char -> seq<Byte>, c: string)
    requires '<' !in c
    ensures RewriteAnchors(eucKr, c) == c
    ensures StripImages(c) == c
  {
    TagFreePrefixKeptByAnchors(eucKr, c, "");
    TagFreePrefixKeptByImages(c, "");
    assert c + "" == c;
  }

  lemma RewriteItemAnchors(eucKr: char -> seq<Byte>, a: string, d: DownFile, b: string, m: string, c: string)
    requires '<' !in a && '<' !in b && '<' !in c && '<' !in m
    requires ValidDownFile(d)
    ensures RewriteAnchors(eucKr, a + AnchorText(d) + b + ImgTagText(m) + c)
      == a + (DownloadAnchor(eucKr, d) + (b + (ImgTagText(m) + c)))
  {
    var img := ImgTagText(m);
    calc {
      RewriteAnchors(eucKr, a + AnchorText(d) + b + img + c);
      { assert a + AnchorText(d) + b + img + c == a + (AnchorText(d) + (b + (img + c))); }
      RewriteAnchors(eucKr, a + (AnchorText(d) + (b + (img + c))));
      { TagFreePrefixKeptByAnchors(eucKr, a, AnchorText(d) + (b + (img + c))); }
      a + RewriteAnchors(eucKr, AnchorText(d) + (b + (img + c)));
      { AnchorRewritten(eucKr, d, b + (img + c)); }
      a + (DownloadAnchor(eucKr, d) + RewriteAnchors(eucKr, b + (img + c)));
      { TagFreePrefixKeptByAnchors(eucKr, b, img + c); }
      a + (DownloadAnchor(eucKr, d) + (b + RewriteAnchors(eucKr, img + c)));
      { assert img[1..] == "img" + m + ">"; InertHeadKeptByAnchors(eucKr, img, c); }
      a + (DownloadAnchor(eucKr, d) + (b + (img + RewriteAnchors(eucKr, c))));
      { TagFreeTextIsFixed(eucKr, c); }
      a + (DownloadAnchor(eucKr, d) + (b + (img + c)));
    }
  }

  lemma StripAfterAnchor(b: string, m: string, c: string)
    requires '<' !in b && '<' !in c && '>' !in m
    ensures StripImages(b + (ImgTagText(m) + c)) == b + c
  {
    var img := ImgTagText(m);
    calc {
      StripImages(b + (img + c));
      { TagFreePrefixKeptByImages(b, img + c); }
      b + StripImages(img + c);
      { ImageRemoved(m, c); }
      b + StripImages(c);
      { TagFreePrefixKeptByImages(c, ""); assert c + "" == c; }
      b + c;
    }
  }

  /** The image removal over an item whose anchor is any text with a single
      `<` at its head, not followed by `i`. */
  lemma StripAroundInertTag(x: string, a: string, b: string, m: string, c: string)
    requires '<' !in a && '<' !in b && '<' !in c && '>' !in m
    requires |x| > 1 && x[1] != 'i' && '<' !in x[1..]
    ensures StripImages(a + (x + (b + (ImgTagText(m) + c)))) == a + x + b + c
  {
    var rest := b + (ImgTagText(m) + c);
    calc {
      StripImages(a + (x + rest));
      { TagFreePrefixKeptByImages(a, x + rest); }
      a + StripImages(x + rest);
      { InertHeadKeptByImages(x, rest); }
      a + (x + StripImages(rest));
      { StripAfterAnchor(b, m, c); }
      a + (x + (b + c));
    }
  }

  lemma StripItemImages(eucKr: char -> seq<Byte>, a: string, d: DownFile, b: string, m: string, c: string)
    requires '<' !in a && '<' !in b && '<' !in c && '>' !in m
    requires '<' !in d.board && '<' !in d.cid
    ensures StripImages(a + (DownloadAnchor(eucKr, d) + (b + (ImgTagText(m) + c))))
      == a + DownloadAnchor(eucKr, d) + b + c
  {
    DownloadAnchorOpensOnce(eucKr, d);
    StripAroundInertTag(DownloadAnchor(eucKr, d), a, b, m, c);
  }

  /** A typical attachment list item: text, one `fnDownFile` anchor, more
      text, an icon `<img …>`, more text. The anchor becomes a download link
      and the icon disappears; all other text is kept. */
  lemma ConvertAttachmentItem(eucKr: char -> seq<Byte>, a: string, d: DownFile, b: string, m: string, c: string)
    requires '<' !in a && '<' !in b && '<' !in c && '<' !in m && '>' !in m
    requires ValidDownFile(d) && '<' !in d.board && '<' !in d.cid
    ensures ConvertDownloadPath(eucKr, a + AnchorText(d) + b + ImgTagText(m) + c)
      == a + DownloadAnchor(eucKr, d) + b + c
  {
    RewriteItemAnchors(eucKr, a, d, b, m, c);
    StripItemImages(eucKr, a, d, b, m, c);
  }

  // ---------------------------------------------------------------- content

  /** `getFile`: the first attachment block of the region, converted. */
  function FileSection(eucKr: char -> seq<Byte>, region: string): (r: Result<string>)
    ensures r.Err? <==> !Occurs(FileBlock, region)
    ensures r.Err? ==> r.error == FileSectionNotFound
    ensures r.Ok? ==> r.value == ConvertDownloadPath(eucKr, FirstMatch(FileBlock, region).value.whole)
  {
    match FirstMatch(FileBlock, region)
    case None => Err(FileSectionNotFound)
    case Some(f) => Ok(ConvertDownloadPath(eucKr, f.whole))
  }

  /** `getContent`: the body region with relative links made absolute and its
      first attachment block removed, then the attachment block of the
      untouched region, converted. */
  function Content(relativize: (string, string) -> string, eucKr: char -> seq<Byte>, html: string): (r: Result<string>)
    ensures r == Err(ContentNotFound) <==> !Occurs(BodyRegion, html)
    ensures r == Err(FileSectionNotFound) <==>
      Occurs(BodyRegion, html) && !Occurs(FileBlock, FirstMatch(BodyRegion, html).value.whole)
    ensures r.Err? ==> r.error == ContentNotFound || r.error == FileSectionNotFound
    ensures r.Ok? ==>
      var region := FirstMatch(BodyRegion, html).value.whole;
      r.value == ReplaceFirst(FileBlock, relativize(region, Origin), "") + FileSection(eucKr, region).value
  {
    match FirstMatch(BodyRegion, html)
    case None => Err(ContentNotFound)
    case Some(m) =>
      var file :- FileSection(eucKr, m.whole);
      Ok(ReplaceFirst(FileBlock, relativize(m.whole, Origin), "") + file)
  }

  /** The attachment block's opening `<u` cannot start inside the body
      region's own opening marker. */
  lemma FileBlockStartsAfterMarker(w: string, q: int)
    requires StartsWith(w, BodyRegion.prefix)
    requires 0 <= q && q + 1 < |w| && w[q] == '<' && w[q + 1] == 'u'
    ensures q >= |BodyRegion.prefix|
  {
    var tail := "td class='pd10t'";
    assert BodyRegion.prefix == "<" + tail;
    assert '<' !in tail;
  }

  /** Past its opening marker and first character, the body region holds
      `</ul>` only at its very end: the lazy `(.+?)` stops at the first one. */
  lemma RegionClosesOnce(html: string, m: Match, j: int)
    requires IsMatchAt(BodyRegion, html, m)
    requires |BodyRegion.prefix| + 1 <= j && OccursAt(m.whole, "</ul>", j)
    ensures j + 5 == |m.whole|
  {
    var w := m.whole;
    var cs := m.capture + "</ul>";
    assert w == BodyRegion.prefix + cs;
    if j + 5 < |w| {
      var k := j - |BodyRegion.prefix|;
      assert cs[k..][..5] == w[j..j + 5];
      ShortestCapture(BodyRegion, html, m);
    }
  }

  /** Where an attachment block sits in the text it was found in: it opens
      with `<u` and closes with `</ul>`. */
  lemma FileBlockBounds(w: string, f: Match)
    requires IsMatchAt(FileBlock, w, f)
    ensures f.start + 1 < |w| && w[f.start] == '<' && w[f.start + 1] == 'u'
    ensures End(f) >= f.start + 19
    ensures OccursAt(w, "</ul>", End(f) - 5)
  {
    assert w[f.start..End(f)] == f.whole;
    assert w[f.start] == f.whole[0] && w[f.start + 1] == f.whole[1];
    assert w[End(f) - 5..End(f)] == f.whole[|f.whole| - 5..];
  }

  /** The body region ends at its first `</ul>`, so an attachment block found
      inside it runs to the very end of the region. */
  lemma FileBlockEndsRegion(html: string, m: Match, f: Match)
    requires IsMatchAt(BodyRegion, html, m)
    requires IsMatchAt(FileBlock, m.whole, f)
    ensures End(f) == |m.whole|
  {
    StartsWithConcat(BodyRegion.prefix, m.capture + "</ul>");
    FileBlockBounds(m.whole, f);
    FileBlockStartsAfterMarker(m.whole, f.start);
    RegionClosesOnce(html, m, End(f) - 5);
  }

  /** When the body region has no relative links to rewrite, the content is
      the region with its attachment block converted in place. */
  lemma ContentConvertsFileBlockInPlace(relativize: (string, string) -> string, eucKr: char -> seq<Byte>, html: string)
    requires Occurs(BodyRegion, html)
    requires Occurs(FileBlock, FirstMatch(BodyRegion, html).value.whole)
    requires relativize(FirstMatch(BodyRegion, html).value.whole, Origin) == FirstMatch(BodyRegion, html).value.whole
    ensures
      var region := FirstMatch(BodyRegion, html).value.whole;
      var f := FirstMatch(FileBlock, region).value;
      Content(relativize, eucKr, html) == Ok(region[..f.start] + ConvertDownloadPath(eucKr, region[f.start..]))
  {
    var m := FirstMatch(BodyRegion, html).value;
    var region := m.whole;
    var f := FirstMatch(FileBlock, region).value;
    FileBlockEndsRegion(html, m, f);
    assert region[End(f)..] == "";
    assert region[f.start..] == f.whole;
    assert ReplaceFirst(FileBlock, region, "") == region[..f.start] + "" + "";
    assert region[..f.start] + "" + "" == region[..f.start];
    assert FileSection(eucKr, region) == Ok(ConvertDownloadPath(eucKr, f.whole));
  }

  // ---------------------------------------------------------------- record

  /** `parseArticle`: every field is required, the first missing one (in the
      order title, date, writer, content) is the error, and `url` and
      `category` are left empty for the caller. */
  function ParseArticle(relativize: (string, string) -> string, eucKr: char -> seq<Byte>, html: string): (r: Result<Notice>)
    ensures r.Ok? <==>
      Title(html).Ok? && Date(html).Ok? && Writer(html).Ok? && Content(relativize, eucKr, html).Ok?
    ensures Title(html).Err? ==> r == Err(TitleNotFound)
    ensures Title(html).Ok? && Date(html).Err? ==> r == Err(DateNotFound)
    ensures Title(html).Ok? && Date(html).Ok? && Writer(html).Err? ==> r == Err(WriterNotFound)
    ensures Title(html).Ok? && Date(html).Ok? && Writer(html).Ok? && Content(relativize, eucKr, html).Err? ==>
      r == Err(Content(relativize, eucKr, html).error)
    ensures r.Ok? ==> r.value.url == "" && r.value.category == ""
    ensures r.Ok? ==>
      && r.value.title == Title(html).value
      && r.value.date == Date(html).value
      && r.value.writer == Writer(html).value
      && r.value.content == Content(relativize, eucKr, html).value
  {
    var title :- Title(html);
    var date :- Date(html);
    var writer :- Writer(html);
    var content :- Content(relativize, eucKr, html);
    Ok(Notice(title, date, writer, content, "", ""))
  }

  /** A page without the title cell yields no record at all. */
  lemma MissingTitleFails(relativize: (string, string) -> string, eucKr: char -> seq<Byte>, html: string)
    requires !Occurs(TitleCell, html)
    ensures ParseArticle(relativize, eucKr, html) == Err(TitleNotFound)
  {
  }

  /** The `subcategory` table: a non-empty, space-free label for each of
      the three codes, and none for any other. */
  function CategoryLabel(code: int): (r: Option<string>)
    ensures r.Some? <==> code == 1 || code == 2 || code == 3
    ensures r.Some? ==> |r.value| > 0 && ' ' !in r.value
  {
    if code == 1 then Some("학부")
    else if code == 2 then Some("대학원")
    else if code == 3 then Some("취업정보")
    else None
  }

  /** The category label of `fetchJapNotices`: job postings carry no suffix;
      the other two boards add ` 장학` when the title mentions a scholarship
      (`장학`) and ` 공지` otherwise. */
  function Category(code: int, title: string): (r: Result<string>)
    ensures r.Err? <==> code != 1 && code != 2 && code != 3
    ensures r.Err? ==> r.error == InvalidCategory
    ensures code == 3 ==> r == Ok("취업정보")
    ensures code == 1 ==> r == Ok(if exists j :: OccursAt(title, "장학", j) then "학부 장학" else "학부 공지")
    ensures code == 2 ==> r == Ok(if exists j :: OccursAt(title, "장학", j) then "대학원 장학" else "대학원 공지")
  {
    match CategoryLabel(code)
    case None => Err(InvalidCategory)
    case Some(name) =>
      assert "학부" + " 장학" == "학부 장학" && "학부" + " 공지" == "학부 공지";
      assert "대학원" + " 장학" == "대학원 장학" && "대학원" + " 공지" == "대학원 공지";
      assert "취업정보" + "" == "취업정보";
      Ok(name + (if code == 3 then "" else if Includes(title, "장학") then " 장학" else " 공지"))
  }

  /** `fetchJapNotices` after the fetch: parse the page, then fill in exactly
      the `url` and `category` fields. A page error wins over a bad code,
      because the page is parsed first. */
  function FetchNotice(relativize: (string, string) -> string, eucKr: char -> seq<Byte>, html: string, url: string, code: int): (r: Result<Notice>)
    ensures ParseArticle(relativize, eucKr, html).Err? ==> r == Err(ParseArticle(relativize, eucKr, html).error)
    ensures ParseArticle(relativize, eucKr, html).Ok? ==> (r.Err? <==> code != 1 && code != 2 && code != 3)
    ensures ParseArticle(relativize, eucKr, html).Ok? && r.Err? ==> r.error == InvalidCategory
    ensures r.Ok? ==>
      var n := ParseArticle(relativize, eucKr, html).value;
      && r.value.title == n.title
      && r.value.date == n.date
      && r.value.writer == n.writer
      && r.value.content == n.content
      && r.value.url == url
      && r.value.category == Category(code, n.title).value
  {
    var n :- ParseArticle(relativize, eucKr, html);
    var category :- Category(code, n.title);
    Ok(n.(url := url, category := category))
  }
}

=== FILE: board.dfy ===
/** The listing side of the kujap.com scraper (`getJapUrlList` and
    `getPHPSessionId`) with the network removed: which listing URL is
    requested for a category and page, which session token is read out of
    the `Set-Cookie` header, and which article URLs are harvested from the
    listing page's (already decoded) HTML. */
module Board {
  import opened Outcome
  import opened Text
  import opened Pattern

  const ListBase := "http://www.kujap.com/contents/bbs/bbs_list.html?bbs_cls_cd="
  const PageQuery := "&pagemove=GOTO&pageno="
  const ArticleBase := "http://www.kujap.com/contents/bbs/"

  /** The `catenum` table from category code to board id; any other code
      looks up `undefined`. Every id is a non-empty string of digits. */
  function BoardId(code: int): (r: Option<string>)
    ensures r.Some? <==> code == 1 || code == 2 || code == 3
    ensures r.Some? ==> |r.value| > 0 && forall i :: 0 <= i < |r.value| ==> IsDigit(r.value[i])
  {
    if code == 1 then Some("005003001")
    else if code == 2 then Some("005003002")
    else if code == 3 then Some("005008")
    else None
  }

  /** `${catenum}`: a missing board id is rendered as the text `undefined`,
      which no real board id can be mistaken for. */
  function BoardSegment(code: int): (r: string)
    ensures r == "undefined" <==> BoardId(code).None?
    ensures forall i :: 0 <= i < |r| ==> r[i] != '&' && r[i] != '#'
  {
    match BoardId(code)
    case Some(id) =>
      assert !IsDigit(('u' as char));
      id
    case None => "undefined"
  }

  /** `subUrl`: the board's listing URL, also used to obtain a session. The
      board segment cannot start another query parameter or a fragment. */
  function SessionUrl(code: int): (r: string)
    ensures StartsWith(r, ListBase) && |r| > |ListBase|
    ensures forall i :: |ListBase| <= i < |r| ==> r[i] != '&' && r[i] != '#'
  {
    var r := ListBase + BoardSegment(code);
    assert r[..|ListBase|] == ListBase;
    assert forall i :: |ListBase| <= i < |r| ==> r[i] == BoardSegment(code)[i - |ListBase|];
    r
  }

  /** `mainUrl`: the listing URL of one page of the board. It extends the
      session URL of the same board, so the session and the page belong to
      one board. */
  function ListUrl(page: int, code: int): (r: string)
    ensures StartsWith(r, SessionUrl(code))
    ensures StartsWith(r, ListBase)
    ensures code == 1 ==> r == ListBase + "005003001" + PageQuery + Decimal(page)
    ensures code == 2 ==> r == ListBase + "005003002" + PageQuery + Decimal(page)
    ensures code == 3 ==> r == ListBase + "005008" + PageQuery + Decimal(page)
  {
    var r := SessionUrl(code) + PageQuery + Decimal(page);
    assert r[..|SessionUrl(code)|] == SessionUrl(code);
    assert r[..|ListBase|] == ListBase;
    r
  }

  /** The page number in a listing URL for the given board, if the URL has
      that board's query shape. */
  function PageOf(rest: string, code: int): Option<int>
    requires BoardId(code).Some?
  {
    var head := BoardId(code).value + PageQuery;
    if StartsWith(rest, head) then ParseDecimal(rest[|head|..]) else None
  }

  /** Reads (category code, page) back out of a listing URL. */
  function ParseListUrl(url: string): Option<(int, int)> {
    if !StartsWith(url, ListBase) then None
    else
      var rest := url[|ListBase|..];
      match PageOf(rest, 1)
      case Some(p) => Some((1, p))
      case None =>
        match PageOf(rest, 2)
        case Some(p) => Some((2, p))
        case None =>
          match PageOf(rest, 3)
          case Some(p) => Some((3, p))
          case None => None
  }

  /** A board's own query shape hands the rest of the URL to the number
      parser. */
  lemma PageOfOwnBoard(code: int, d: string)
    requires BoardId(code).Some?
    ensures PageOf(BoardId(code).value + PageQuery + d, code) == ParseDecimal(d)
  {
    var head := BoardId(code).value + PageQuery;
    var rest := head + d;
    assert rest[..|head|] == head && rest[|head|..] == d;
  }

  /** The three board ids differ early enough that one board's query shape
      never matches another board's URL. */
  lemma PageOfOtherBoard(code: int, other: int, d: string)
    requires BoardId(code).Some? && BoardId(other).Some? && code != other
    ensures PageOf(BoardId(code).value + PageQuery + d, other).None?
  {
    var rest := BoardId(code).value + PageQuery + d;
    var head := BoardId(other).value + PageQuery;
    if code == 3 || other == 3 {
      assert rest[5] != head[5];
    } else {
      assert rest[8] != head[8];
    }
  }

  /** Routing: each of the three categories requests its own board, and the
      URL determines both the category and the page number. */
  lemma ListUrlRoundTrip(page: int, code: int)
    requires code == 1 || code == 2 || code == 3
    ensures ParseListUrl(ListUrl(page, code)) == Some((code, page))
  {
    var url := ListUrl(page, code);
    var d := Decimal(page);
    var rest := BoardId(code).value + PageQuery + d;
    assert url == ListBase + rest;
    assert url[|ListBase|..] == rest;
    DecimalRoundTrip(page);
    PageOfOwnBoard(code, d);
    if code != 1 {
      PageOfOtherBoard(code, 1, d);
    }
    if code == 3 {
      PageOfOtherBoard(code, 2, d);
    }
  }

  /** Distinct (category, page) pairs request distinct listing pages. */
  lemma ListUrlInjective(page1: int, code1: int, page2: int, code2: int)
    requires code1 == 1 || code1 == 2 || code1 == 3
    requires code2 == 1 || code2 == 2 || code2 == 3
    requires ListUrl(page1, code1) == ListUrl(page2, code2)
    ensures page1 == page2 && code1 == code2
  {
    ListUrlRoundTrip(page1, code1);
    ListUrlRoundTrip(page2, code2);
  }

  /** `/bbs_content\.html(.+?)type=B/g` */
  const ListingLink := Shape("bbs_content.html", "type=B", 1, NotLineTerminator)

  /** An absolute article URL as the harvester builds it: the article base,
      `bbs_content.html`, a non-empty middle without line breaks, `type=B`. */
  predicate IsArticleUrl(u: string) {
    var lead := ArticleBase + "bbs_content.html";
    && |u| >= |lead| + 1 + 6
    && u[..|lead|] == lead
    && u[|u| - 6..] == "type=B"
    && forall i :: |lead| <= i < |u| - 6 ==> !IsLineTerminator(u[i])
  }

  lemma ArticleUrlOfMatch(html: string, m: Match)
    requires IsMatchAt(ListingLink, html, m)
    ensures IsArticleUrl(ArticleBase + m.whole)
  {
    var u := ArticleBase + m.whole;
    var lead := ArticleBase + "bbs_content.html";
    assert u == lead + m.capture + "type=B";
    forall i | |lead| <= i < |u| - 6 ensures !IsLineTerminator(u[i]) {
      assert u[i] == m.capture[i - |lead|];
    }
  }

  /** The article URLs of a listing page, in the order the links appear
      (the part of `getJapUrlList` after the page is fetched and decoded).
      A page without any link is an error, never an empty list. */
  function ArticleUrls(html: string): (r: Result<seq<string>>)
    ensures r.Err? <==> !Occurs(ListingLink, html)
    ensures r.Err? ==> r.error == NoArticles
    ensures r.Ok? ==> |r.value| > 0
    ensures r.Ok? ==> forall j :: 0 <= j < |r.value| ==> IsArticleUrl(r.value[j])
    ensures r.Ok? ==> |r.value| == |AllMatches(ListingLink, html)|
    ensures r.Ok? ==> forall j :: 0 <= j < |r.value| ==>
      r.value[j] == ArticleBase + AllMatches(ListingLink, html)[j].whole
  {
    var ms := AllMatches(ListingLink, html);
    if |ms| == 0 then Err(NoArticles)
    else
      var urls := seq(|ms|, j requires 0 <= j < |ms| => ArticleBase + ms[j].whole);
      assert forall j :: 0 <= j < |ms| ==> IsArticleUrl(urls[j]) by {
        forall j | 0 <= j < |ms| ensures IsArticleUrl(urls[j]) {
          ArticleUrlOfMatch(html, ms[j]);
        }
      }
      Ok(urls)
  }

  /** `/PHPSESSID=(.+?);/` */
  const SessionCookie := Shape("PHPSESSID=", ";", 1, NotLineTerminator)

  /** What one match of the session-cookie pattern says about its token. */
  lemma TokenOfMatch(cookie: string, m: Match)
    requires IsMatchAt(SessionCookie, cookie, m)
    ensures forall i :: 1 <= i < |m.capture| ==> m.capture[i] != ';'
    ensures OccursAt(cookie, "PHPSESSID=", m.start)
    ensures OccursAt(cookie, m.capture + ";", m.start + 10)
  {
    var t := m.capture;
    ShortestCapture(SessionCookie, cookie, m);
    forall i | 1 <= i < |t| ensures t[i] != ';' {
      assert (t + ";")[i..][..1] == [t[i]];
    }
    assert cookie[m.start..End(m)] == "PHPSESSID=" + (t + ";");
    assert cookie[m.start..m.start + 10] == "PHPSESSID=";
    assert cookie[m.start + 10..End(m)] == t + ";";
  }

  /** The token part of `getPHPSessionId`: reads `PHPSESSID` out of the
      `Set-Cookie` header (`None` when the header is absent). An empty header
      is falsy in JavaScript and counts as absent. */
  function SessionId(setCookie: Option<string>): (r: Result<string>)
    ensures r == Err(NoCookie) <==> setCookie.None? || setCookie.value == ""
    ensures r == Err(NoSessionId) <==>
      setCookie.Some? && setCookie.value != "" && !Occurs(SessionCookie, setCookie.value)
    ensures r.Err? ==> r.error == NoCookie || r.error == NoSessionId
    ensures r.Ok? ==> |r.value| > 0
    ensures r.Ok? ==> forall i :: 0 <= i < |r.value| ==> !IsLineTerminator(r.value[i])
    ensures r.Ok? ==> forall i :: 1 <= i < |r.value| ==> r.value[i] != ';'
    ensures r.Ok? ==>
      exists i ::
        && 10 <= i
        && NoMatchIn(SessionCookie, setCookie.value, 0, i - 10)
        && OccursAt(setCookie.value, "PHPSESSID=", i - 10)
        && OccursAt(setCookie.value, r.value + ";", i)
  {
    if setCookie.None? || setCookie.value == "" then Err(NoCookie)
    else
      match FirstMatch(SessionCookie, setCookie.value)
      case None => Err(NoSessionId)
      case Some(m) =>
        TokenOfMatch(setCookie.value, m);
        assert m.start + 10 - 10 == m.start;
        Ok(m.capture)
  }

  /** The `cookie` request header that carries a session token. */
  function CookieHeader(token: string): (r: string)
    ensures StartsWith(r, "PHPSESSID=") && r[10..] == token
  {
    var r := "PHPSESSID=" + token;
    assert r[..10] == "PHPSESSID=";
    r
  }

  /** A header that begins with a match of the pattern is matched there. */
  lemma MatchAtHeadIsFirst(cookie: string, k: int)
    requires MatchesAt(SessionCookie, cookie, 0, k)
    ensures FirstMatch(SessionCookie, cookie).Some?
    ensures FirstMatch(SessionCookie, cookie).value.start == 0
  {
  }

  /** In an issued cookie the pattern matches at the head with exactly the
      token as its middle. */
  lemma IssuedCookieMatches(token: string, rest: string)
    requires |token| > 0 && ';' !in token
    requires forall i :: 0 <= i < |token| ==> !IsLineTerminator(token[i])
    ensures MatchesAt(SessionCookie, CookieHeader(token) + ";" + rest, 0, |token|)
    ensures forall j :: 0 <= j < |token| ==> !MatchesAt(SessionCookie, CookieHeader(token) + ";" + rest, 0, j)
    ensures (CookieHeader(token) + ";" + rest)[10..10 + |token|] == token
  {
    var cookie := CookieHeader(token) + ";" + rest;
    var t := token + (";" + rest);
    assert cookie == "PHPSESSID=" + t;
    assert cookie[0..] == cookie && cookie[..10] == "PHPSESSID=" && cookie[10..] == t;
    assert t[..|token|] == token && t[|token|..][..1] == ";";
    forall j | 0 <= j < |token| ensures !StartsWith(t[j..], ";") {
      assert t[j..][..1] == [token[j]];
    }
  }

  /** A `Set-Cookie` header that begins with the session cookie gives back
      exactly its token, so the token the listing request sends in
      `CookieHeader` is the one the server issued. */
  lemma SessionIdOfIssuedCookie(token: string, rest: string)
    requires |token| > 0 && ';' !in token
    requires forall i :: 0 <= i < |token| ==> !IsLineTerminator(token[i])
    ensures SessionId(Some(CookieHeader(token) + ";" + rest)) == Ok(token)
  {
    var cookie := CookieHeader(token) + ";" + rest;
    IssuedCookieMatches(token, rest);
    MatchAtHeadIsFirst(cookie, |token|);
    var m := FirstMatch(SessionCookie, cookie).value;
    assert |m.capture| == |token|;
    assert m.capture == cookie[10..10 + |token|];
  }
}

=== FILE: outcome.dfy ===
/** Failure-compatible wrappers and the scraper's error taxonomy.
    Every `throw Error(...)` of the scraper becomes an `Err` carrying one of
    the `Failure` values below; nothing is ever returned half-built. */
module Outcome {

  datatype Option<+T> = None | Some(value: T)

  /** One constructor per distinct `throw` site of type-c/jap.ts. */
  datatype Failure =
    | NoArticles          // "No match found": the listing page has no article link
    | InvalidCategory     // "Invalid category number"
    | NoCookie            // "No cookie found": Set-Cookie absent or empty
    | NoSessionId         // "No PHPSESSID found"
    | TitleNotFound       // "Failed to get title"
    | DateNotFound        // "Failed to get date"
    | WriterNotFound      // "Failed to get writer"
    | ContentNotFound     // "Failed to get main content"
    | FileSectionNotFound // "No file section found"

  datatype Result<+T> = Ok(value: T) | Err(error: Failure) {

    predicate IsFailure() {
      Err?
    }

    function PropagateFailure<U>(): Result<U>
      requires Err?
    {
      Err(error)
    }

    function Extract(): T
      requires Ok?
    {
      value
    }
  }
}

=== FILE: pattern.dfy ===
/** The regular expressions of the scraper all have one of a few literal-marker
    shapes: a fixed prefix, a middle run of characters from one class, and a
    fixed suffix. This module gives those shapes ECMAScript's matching
    semantics without a general regex engine:

    - `match` without `g` finds the LEFTMOST start position where the shape
      matches, and there the SHORTEST middle (a lazy `+?` / `*?` quantifier);
    - `match` with `g` repeats that search from the end of each match;
    - `replace` without `g` rewrites the first such match; with `g` it scans
      left to right, copying unmatched characters and replacing each match.

    A greedy run `[^x]*` followed by a suffix that starts with `x` has only
    one possible length, so for it greedy and lazy coincide
    (`ExcludedCloserIsUnique`). */
module Pattern {
  import opened Outcome
  import opened Text

  /** `.` with the `s` flag, `.` without it, and `[^x]`. */
  datatype CharClass = AnyChar | NotLineTerminator | NotChar(excluded: char)

  predicate InClass(cls: CharClass, c: char) {
    match cls
    case AnyChar => true
    case NotLineTerminator => !IsLineTerminator(c)
    case NotChar(x) => c != x
  }

  predicate AllIn(cls: CharClass, s: string) {
    forall i :: 0 <= i < |s| ==> InClass(cls, s[i])
  }

  /** `prefix (middle{minMiddle,}?) suffix`. */
  datatype Shape = Shape(prefix: string, suffix: string, minMiddle: nat, middle: CharClass)

  /** A middle of length `k` at the head of `t` lets the suffix follow. */
  predicate Closes(shape: Shape, t: string, k: int) {
    shape.minMiddle <= k <= |t| && AllIn(shape.middle, t[..k]) && StartsWith(t[k..], shape.suffix)
  }

  /** The shape matches in `s` at position `p` with a middle of length `k`. */
  predicate MatchesAt(shape: Shape, s: string, p: int, k: int) {
    0 <= p <= |s| && StartsWith(s[p..], shape.prefix) && Closes(shape, s[p + |shape.prefix|..], k)
  }

  ghost predicate NoMatchIn(shape: Shape, s: string, lo: int, hi: int) {
    forall p, k :: lo <= p < hi ==> !MatchesAt(shape, s, p, k)
  }

  ghost predicate Occurs(shape: Shape, s: string) {
    exists p, k :: MatchesAt(shape, s, p, k)
  }

  lemma InClassAt(cls: CharClass, t: string, j: nat, k: nat)
    requires k < j <= |t| && AllIn(cls, t[..j])
    ensures InClass(cls, t[k])
  {
    assert t[..j][k] == t[k];
  }

  /** Lazy search for the shortest middle, trying lengths `k`, `k + 1`, ... */
  function CloseFrom(shape: Shape, t: string, k: nat): (r: Option<nat>)
    requires k <= |t| && AllIn(shape.middle, t[..k])
    ensures r.Some? ==> k <= r.value && Closes(shape, t, r.value)
    ensures r.Some? ==> forall j :: k <= j < r.value ==> !Closes(shape, t, j)
    ensures r.None? ==> forall j :: k <= j ==> !Closes(shape, t, j)
    decreases |t| - k
  {
    if shape.minMiddle <= k && StartsWith(t[k..], shape.suffix) then Some(k)
    else if k == |t| then None
    else if !InClass(shape.middle, t[k]) then
      assert forall j :: k < j ==> !Closes(shape, t, j) by {
        forall j | k < j && Closes(shape, t, j) ensures false {
          InClassAt(shape.middle, t, j, k);
        }
      }
      None
    else
      assert t[..k + 1] == t[..k] + [t[k]];
      CloseFrom(shape, t, k + 1)
  }

  /** Whether, and with which shortest middle, the shape matches at `p`. */
  function MatchAt(shape: Shape, s: string, p: nat): (r: Option<nat>)
    requires p <= |s|
    ensures r.Some? ==> MatchesAt(shape, s, p, r.value)
    ensures r.Some? ==> forall k :: 0 <= k < r.value ==> !MatchesAt(shape, s, p, k)
    ensures r.None? ==> forall k :: !MatchesAt(shape, s, p, k)
  {
    if StartsWith(s[p..], shape.prefix) then CloseFrom(shape, s[p + |shape.prefix|..], 0) else None
  }

  /** One match: where it starts, the text of the middle (the capture group)
      and the whole matched text. */
  datatype Match = Match(start: nat, capture: string, whole: string)

  function End(m: Match): nat {
    m.start + |m.whole|
  }

  /** `m` is what the engine reports for a match starting at `m.start`: the
      whole text sits in `s` there, is prefix + capture + suffix, and no
      shorter middle would have done. */
  predicate IsMatchAt(shape: Shape, s: string, m: Match) {
    && End(m) <= |s|
    && s[m.start..End(m)] == m.whole
    && m.whole == shape.prefix + m.capture + shape.suffix
    && |m.capture| >= shape.minMiddle
    && AllIn(shape.middle, m.capture)
    && MatchesAt(shape, s, m.start, |m.capture|)
    && forall k :: 0 <= k < |m.capture| ==> !MatchesAt(shape, s, m.start, k)
  }

  function MatchOf(shape: Shape, s: string, p: nat, k: nat): (m: Match)
    requires MatchesAt(shape, s, p, k)
    requires forall j :: 0 <= j < k ==> !MatchesAt(shape, s, p, j)
    ensures IsMatchAt(shape, s, m) && m.start == p
  {
    var a := p + |shape.prefix|;
    var t := s[a..];
    assert t[..k] == s[a..a + k];
    assert t[k..][..|shape.suffix|] == s[a + k..a + k + |shape.suffix|];
    var m := Match(p, s[a..a + k], shape.prefix + s[a..a + k] + shape.suffix);
    assert s[p..End(m)] == s[p..a] + s[a..a + k] + s[a + k..End(m)];
    m
  }

  /** A position with no match in front of a stretch with none widens it. */
  lemma NoMatchExtends(shape: Shape, s: string, i: int, hi: int)
    requires forall k :: !MatchesAt(shape, s, i, k)
    requires NoMatchIn(shape, s, i + 1, hi)
    ensures NoMatchIn(shape, s, i, hi)
  {
  }

  /** Leftmost match starting at or after `i`. */
  function FindFrom(shape: Shape, s: string, i: nat): (r: Option<Match>)
    requires i <= |s|
    ensures r.Some? ==> i <= r.value.start && IsMatchAt(shape, s, r.value)
    ensures r.Some? ==> NoMatchIn(shape, s, i, r.value.start)
    ensures r.None? ==> NoMatchIn(shape, s, i, |s| + 1)
    decreases |s| - i
  {
    match MatchAt(shape, s, i)
    case Some(k) => Some(MatchOf(shape, s, i, k))
    case None =>
      if i == |s| then None
      else
        var r := FindFrom(shape, s, i + 1);
        NoMatchExtends(shape, s, i, if r.Some? then r.value.start else |s| + 1);
        r
  }

  /** `s.match(re)` without the `g` flag. */
  function FirstMatch(shape: Shape, s: string): (r: Option<Match>)
    ensures r.Some? ==> IsMatchAt(shape, s, r.value) && NoMatchIn(shape, s, 0, r.value.start)
    ensures r.None? <==> !Occurs(shape, s)
  {
    var r := FindFrom(shape, s, 0);
    if r.Some? then
      assert MatchesAt(shape, s, r.value.start, |r.value.capture|);
      r
    else
      r
  }

  /** `ms` is what a global search from `i` reports: genuine matches, in
      left-to-right order, not overlapping, with no match starting in any
      stretch the search skipped. */
  ghost predicate Tiled(shape: Shape, s: string, i: int, ms: seq<Match>) {
    && (forall j :: 0 <= j < |ms| ==> IsMatchAt(shape, s, ms[j]) && i <= ms[j].start)
    && (forall j :: 0 <= j < |ms| - 1 ==> End(ms[j]) <= ms[j + 1].start)
    && (forall j :: 0 <= j < |ms| - 1 ==> NoMatchIn(shape, s, End(ms[j]), ms[j + 1].start))
    && (|ms| == 0 ==> NoMatchIn(shape, s, i, |s| + 1))
    && (|ms| > 0 ==> NoMatchIn(shape, s, i, ms[0].start))
    && (|ms| > 0 ==> NoMatchIn(shape, s, End(ms[|ms| - 1]), |s| + 1))
  }

  lemma TiledCons(shape: Shape, s: string, i: int, m: Match, rest: seq<Match>)
    requires IsMatchAt(shape, s, m) && i <= m.start && NoMatchIn(shape, s, i, m.start)
    requires Tiled(shape, s, End(m), rest)
    ensures Tiled(shape, s, i, [m] + rest)
  {
    var r := [m] + rest;
    assert r[0] == m && r[1..] == rest;
    forall j | 0 <= j < |r| - 1 ensures End(r[j]) <= r[j + 1].start && NoMatchIn(shape, s, End(r[j]), r[j + 1].start) {
      if j > 0 {
        assert r[j] == rest[j - 1] && r[j + 1] == rest[j];
      }
    }
  }

  /** `s.match(re)` with the `g` flag, searching from `i`. */
  function MatchesFrom(shape: Shape, s: string, i: nat): (r: seq<Match>)
    requires |shape.prefix| > 0
    requires i <= |s|
    ensures Tiled(shape, s, i, r)
    decreases |s| - i
  {
    match FindFrom(shape, s, i)
    case None => []
    case Some(m) =>
      var rest := MatchesFrom(shape, s, End(m));
      TiledCons(shape, s, i, m, rest);
      [m] + rest
  }

  /** `s.match(re)` with the `g` flag; an empty result stands for `null`. */
  function AllMatches(shape: Shape, s: string): (r: seq<Match>)
    requires |shape.prefix| > 0
    ensures forall j :: 0 <= j < |r| ==> IsMatchAt(shape, s, r[j])
    ensures forall j :: 0 <= j < |r| - 1 ==> End(r[j]) <= r[j + 1].start
    ensures forall j :: 0 <= j < |r| - 1 ==> NoMatchIn(shape, s, End(r[j]), r[j + 1].start)
    ensures |r| > 0 ==> NoMatchIn(shape, s, 0, r[0].start)
    ensures |r| > 0 ==> NoMatchIn(shape, s, End(r[|r| - 1]), |s| + 1)
    ensures |r| == 0 <==> !Occurs(shape, s)
  {
    var r := MatchesFrom(shape, s, 0);
    assert |r| > 0 ==> MatchesAt(shape, s, r[0].start, |r[0].capture|);
    r
  }

  /** `s.replace(re, replacement)` without the `g` flag. */
  function ReplaceFirst(shape: Shape, s: string, replacement: string): (r: string)
    ensures !Occurs(shape, s) ==> r == s
    ensures Occurs(shape, s) ==>
      var m := FirstMatch(shape, s).value;
      r == s[..m.start] + replacement + s[End(m)..]
  {
    match FirstMatch(shape, s)
    case None => s
    case Some(m) => s[..m.start] + replacement + s[End(m)..]
  }

  /** For `[^x]` followed by a suffix that starts with `x` there is at most one
      middle length, so a greedy `[^x]*x` and a lazy `[^x]*?x` agree. */
  lemma ExcludedCloserIsUnique(shape: Shape, t: string, k1: int, k2: int)
    requires shape.middle.NotChar? && |shape.suffix| > 0 && shape.suffix[0] == shape.middle.excluded
    requires Closes(shape, t, k1) && Closes(shape, t, k2)
    ensures k1 == k2
  {
    if k1 < k2 {
      assert t[k1..][0] == t[k1];
      InClassAt(shape.middle, t, k2, k1);
    } else if k2 < k1 {
      assert t[k2..][0] == t[k2];
      InClassAt(shape.middle, t, k1, k2);
    }
  }

  /** The shortest-middle rule seen from the match itself: past the minimum
      length, the suffix does not begin anywhere inside the capture. */
  lemma ShortestCapture(shape: Shape, s: string, m: Match)
    requires IsMatchAt(shape, s, m)
    ensures forall k :: shape.minMiddle <= k < |m.capture| ==>
      !StartsWith((m.capture + shape.suffix)[k..], shape.suffix)
  {
    var a := m.start + |shape.prefix|;
    var t := s[a..];
    var cs := m.capture + shape.suffix;
    assert m.whole == shape.prefix + cs;
    assert End(m) == a + |cs|;
    assert s[a..End(m)] == s[m.start..End(m)][|shape.prefix|..] == cs;
    assert t[..|cs|] == cs;
    forall k | shape.minMiddle <= k < |m.capture| && StartsWith(cs[k..], shape.suffix)
      ensures false
    {
      assert t[..k] == m.capture[..k];
      assert t[k..][..|shape.suffix|] == cs[k..][..|shape.suffix|];
      assert Closes(shape, t, k);
      assert MatchesAt(shape, s, m.start, k);
    }
  }

  /** One replacement step of a global `replace`: the length of the match at
      the head of the text, and what replaces it. */
  datatype Step = Step(length: nat, text: string)

  /** A global `replace` driven by `at`, which reports the match (if any)
      beginning at the head of a text. Characters where nothing matches are
      copied; a match is replaced and scanning resumes after it. */
  function ReplaceEach(s: string, at: string -> Option<Step>): (r: string)
    ensures (forall i :: 0 <= i < |s| ==> at(s[i..]).None?) ==> r == s
    decreases |s|
  {
    if |s| == 0 then ""
    else
      assert s[0..] == s;
      var step := at(s);
      if step.Some? && 0 < step.value.length <= |s| then
        step.value.text + ReplaceEach(s[step.value.length..], at)
      else
        assert forall i :: 0 <= i < |s| - 1 ==> s[1..][i..] == s[i + 1..];
        [s[0]] + ReplaceEach(s[1..], at)
  }

  /** Text in which no match begins is copied through unchanged, and the
      scan then continues exactly as it would on the remainder alone. */
  lemma {:induction false} ReplaceEachCopiesInertPrefix(a: string, b: string, at: string -> Option<Step>)
    requires forall i :: 0 <= i < |a| ==> at((a + b)[i..]).None?
    ensures ReplaceEach(a + b, at) == a + ReplaceEach(b, at)
    decreases |a|
  {
    if |a| > 0 {
      var ab := a + b;
      assert ab[0..] == ab;
      assert at(ab).None?;
      assert ab[1..] == a[1..] + b;
      assert ReplaceEach(ab, at) == [ab[0]] + ReplaceEach(ab[1..], at);
      forall i | 0 <= i < |a[1..]| ensures at((a[1..] + b)[i..]).None? {
        assert (a[1..] + b)[i..] == ab[i + 1..];
      }
      ReplaceEachCopiesInertPrefix(a[1..], b, at);
      var tail := ReplaceEach(b, at);
      assert ReplaceEach(ab[1..], at) == a[1..] + tail;
      assert [ab[0]] + (a[1..] + tail) == ([a[0]] + a[1..]) + tail;
      assert a == [a[0]] + a[1..];
    } else {
      assert a + b == b;
    }
  }

  /** A global `replace` whose replacements are never longer than what they
      replace never lengthens the text. */
  lemma {:induction false} ReplaceEachNeverLonger(s: string, at: string -> Option<Step>)
    requires forall t :: at(t).Some? ==> |at(t).value.text| <= at(t).value.length
    ensures |ReplaceEach(s, at)| <= |s|
    decreases |s|
  {
    if |s| > 0 {
      var step := at(s);
      if step.Some? && 0 < step.value.length <= |s| {
        ReplaceEachNeverLonger(s[step.value.length..], at);
      } else {
        ReplaceEachNeverLonger(s[1..], at);
      }
    }
  }
}

=== FILE: text.dfy ===
/** Plain string facts the scraper relies on: prefixes, substring search,
    the JavaScript `\s` and line-terminator classes, `String.prototype`
    helpers used on captured cells, and the decimal rendering of a page
    number inside a template literal. */
module Text {
  import opened Outcome

  predicate StartsWith(s: string, p: string) {
    |p| <= |s| && s[..|p|] == p
  }

  lemma StartsWithConcat(a: string, b: string)
    ensures StartsWith(a + b, a)
  {
    assert (a + b)[..|a|] == a;
  }

  /** `t` occurs in `s` at index `i`. */
  predicate OccursAt(s: string, t: string, i: int) {
    0 <= i && i + |t| <= |s| && s[i..i + |t|] == t
  }

  /** Characters the regular-expression `.` refuses without the `s` flag
      (LineTerminator of ECMA-262). */
  predicate IsLineTerminator(c: char) {
    c == '\n' || c == '\r' || c == '\U{2028}' || c == '\U{2029}'
  }

  /** Characters matched by `\s` (WhiteSpace and LineTerminator of ECMA-262). */
  predicate IsWhitespace(c: char) {
    || c == '\t' || c == '\n' || c == '\U{000B}' || c == '\U{000C}' || c == '\r'
    || c == ' ' || c == '\U{00A0}' || c == '\U{1680}'
    || ('\U{2000}' <= c <= '\U{200A}')
    || c == '\U{2028}' || c == '\U{2029}' || c == '\U{202F}' || c == '\U{205F}'
    || c == '\U{3000}' || c == '\U{FEFF}'
  }

  function IncludesFrom(s: string, t: string, i: nat): (r: bool)
    requires i <= |s|
    ensures r <==> exists j :: i <= j && OccursAt(s, t, j)
    decreases |s| - i
  {
    if i + |t| > |s| then false
    else if s[i..i + |t|] == t then assert OccursAt(s, t, i); true
    else if i == |s| then false
    else IncludesFrom(s, t, i + 1)
  }

  /** `s.includes(t)`. */
  function Includes(s: string, t: string): (r: bool)
    ensures r <==> exists j :: OccursAt(s, t, j)
  {
    IncludesFrom(s, t, 0)
  }

  /** Index of the first `c` in `s`, or `|s|` when there is none. */
  function FirstIndex(s: string, c: char): (r: nat)
    ensures r <= |s|
    ensures c !in s[..r]
    ensures r < |s| ==> s[r] == c
  {
    if |s| == 0 || s[0] == c then 0
    else
      var k := FirstIndex(s[1..], c);
      assert s[..k + 1] == [s[0]] + s[1..][..k];
      k + 1
  }

  /** `s.replace(c, "")` with a one-character string pattern: only the first
      occurrence goes. */
  function RemoveFirst(s: string, c: char): (r: string)
    ensures c !in s ==> r == s
    ensures c in s ==> |r| == |s| - 1
    ensures c in s ==> exists i :: 0 <= i < |s| && s[i] == c && c !in s[..i] && r == s[..i] + s[i + 1..]
  {
    var i := FirstIndex(s, c);
    if i == |s| then
      assert s[..i] == s;
      s
    else
      s[..i] + s[i + 1..]
  }

  /** `s.split(" ")[0]`: everything before the first space. */
  function BeforeSpace(s: string): (r: string)
    ensures ' ' !in r
    ensures StartsWith(s, r)
    ensures |r| < |s| ==> s[|r|] == ' '
  {
    if |s| == 0 || s[0] == ' ' then ""
    else
      var rest := BeforeSpace(s[1..]);
      assert ([s[0]] + rest)[1..] == rest;
      [s[0]] + rest
  }

  predicate IsDigit(c: char) {
    '0' <= c <= '9'
  }

  function DigitChar(d: nat): char
    requires d < 10
  {
    "0123456789"[d]
  }

  /** Decimal digits of a natural number, most significant first. */
  function Digits(n: nat): (r: string)
    ensures |r| > 0
    ensures forall i :: 0 <= i < |r| ==> IsDigit(r[i])
    ensures r[0] == '0' ==> n == 0
  {
    if n < 10 then [DigitChar(n)] else Digits(n / 10) + [DigitChar(n % 10)]
  }

  /** How a whole number is rendered by `${n}` in a template literal: an
      optional minus sign, then decimal digits without a leading zero. Only
      the plain decimal form is modelled; JavaScript's exponent form for
      large magnitudes is not. */
  function Decimal(n: int): (r: string)
    ensures |r| > 0
    ensures r[0] == '-' <==> n < 0
    ensures forall i :: (if n < 0 then 1 else 0) <= i < |r| ==> IsDigit(r[i])
    ensures n < 0 ==> |r| > 1 && r[1] != '0'
    ensures n >= 0 && r[0] == '0' ==> r == "0"
  {
    if n < 0 then "-" + Digits(-n) else Digits(n)
  }

  function ParseDigits(s: string): (r: Option<nat>)
    decreases |s|
  {
    if |s| == 0 || !IsDigit(s[|s| - 1]) then None
    else
      var d := (s[|s| - 1] as int) - ('0' as int);
      if |s| == 1 then Some(d)
      else match ParseDigits(s[..|s| - 1])
        case None => None
        case Some(v) => Some(10 * v + d)
  }

  /** Reads back an optionally signed decimal numeral. */
  function ParseDecimal(s: string): Option<int> {
    if |s| > 0 && s[0] == '-' then
      match ParseDigits(s[1..])
      case None => None
      case Some(v) => var x: int := v; Some(-x)
    else
      match ParseDigits(s)
      case None => None
      case Some(v) => var x: int := v; Some(x)
  }

  lemma {:induction false} DigitsRoundTrip(n: nat)
    ensures ParseDigits(Digits(n)) == Some(n)
    decreases n
  {
    if n >= 10 {
      var s := Digits(n);
      DigitsRoundTrip(n / 10);
      assert s[..|s| - 1] == Digits(n / 10);
      assert s[|s| - 1] == DigitChar(n % 10);
    }
  }

  lemma NegativeRoundTrip(m: nat)
    ensures ParseDecimal("-" + Digits(m)) == Some(-(m as int))
  {
    var s := "-" + Digits(m);
    DigitsRoundTrip(m);
    assert s[1..] == Digits(m);
  }

  lemma NonNegativeRoundTrip(n: nat)
    ensures ParseDecimal(Digits(n)) == Some(n)
  {
    var s := Digits(n);
    DigitsRoundTrip(n);
    assert IsDigit(s[0]);
  }

  /** The page number put into a listing URL can be read back from it. */
  lemma DecimalRoundTrip(n: int)
    ensures ParseDecimal(Decimal(n)) == Some(n)
  {
    if n < 0 {
      NegativeRoundTrip(-n);
      assert Decimal(n) == "-" + Digits(-n);
    } else {
      NonNegativeRoundTrip(n);
      assert Decimal(n) == Digits(n);
    }
  }
}

=== FILE: urlencoding.dfy ===
/** Attachment file names are sent to the download endpoint percent-encoded
    byte by byte in EUC-KR rather than UTF-8 (`customURLEncode`). ASCII
    characters go through the `encodeURIComponent` function of
    ECMA-262; every other code point is looked up in an EUC-KR code table
    and each of its bytes is written as `%` plus the byte's uppercase
    hexadecimal digits, without a leading zero (`byte.toString(16)`).

    The EUC-KR code table belongs to an external library, so it is a
    parameter `eucKr` here: any function from a character to its bytes. */
module UrlEncoding {
  import opened Outcome

  newtype Byte = x: int | 0 <= x < 256

  /** Uppercase hexadecimal digit of a value below 16. */
  function HexDigit(d: int): (c: char)
    requires 0 <= d < 16
    ensures IsUpperHex(c)
  {
    if d < 10 then ('0' as int + d) as char else ('A' as int + d - 10) as char
  }

  predicate IsUpperHex(c: char) {
    '0' <= c <= '9' || 'A' <= c <= 'F'
  }

  /** Value of a hexadecimal digit of either case (section 2.1 of RFC 3986
      makes the two cases equivalent). */
  function HexValue(c: char): (r: Option<int>)
    ensures r.Some? ==> 0 <= r.value < 16
  {
    if '0' <= c <= '9' then Some(c as int - '0' as int)
    else if 'A' <= c <= 'F' then Some(c as int - 'A' as int + 10)
    else if 'a' <= c <= 'f' then Some(c as int - 'a' as int + 10)
    else None
  }

  lemma HexValueOfDigit(d: int)
    requires 0 <= d < 16
    ensures HexValue(HexDigit(d)) == Some(d)
  {
  }

  /** `byte.toString(16).toUpperCase()`: one digit below 16, two above. */
  function ShortHex(b: Byte): (r: string)
    ensures |r| == 1 <==> b < 16
    ensures |r| == 1 ==> HexValue(r[0]) == Some(b as int)
    ensures |r| != 1 ==> |r| == 2 && r[0] != '0'
    ensures |r| == 2 ==> HexValue(r[0]) == Some(b as int / 16) && HexValue(r[1]) == Some(b as int % 16)
  {
    if b < 16 then
      HexValueOfDigit(b as int);
      [HexDigit(b as int)]
    else
      HexValueOfDigit(b as int / 16);
      HexValueOfDigit(b as int % 16);
      [HexDigit(b as int / 16), HexDigit(b as int % 16)]
  }

  /** The percent-encoded octet of section 2.1 of RFC 3986: always two digits. */
  function Triplet(b: Byte): string {
    ['%', HexDigit(b as int / 16), HexDigit(b as int % 16)]
  }

  /** `encodeEUC_KR` once the bytes are known: `%` + `ShortHex` per byte. */
  function EscapeBytes(bs: seq<Byte>): (r: string)
    ensures forall i :: 0 <= i < |r| ==> r[i] == '%' || IsUpperHex(r[i])
    ensures |bs| > 0 ==> |r| > 0 && r[0] == '%'
  {
    if |bs| == 0 then "" else "%" + ShortHex(bs[0]) + EscapeBytes(bs[1..])
  }

  /** Percent-encoding of a byte string by triplets (RFC 3986, section 2.1). */
  function PctEncode(bs: seq<Byte>): (r: string)
    ensures |r| == 3 * |bs|
    ensures forall i :: 0 <= i < |r| ==> r[i] == '%' || IsUpperHex(r[i])
  {
    if |bs| == 0 then "" else Triplet(bs[0]) + PctEncode(bs[1..])
  }

  /** Decodes a string made only of percent-encoded triplets. */
  function PctDecode(s: string): Option<seq<Byte>>
    decreases |s|
  {
    if |s| == 0 then Some([])
    else if |s| < 3 || s[0] != '%' || HexValue(s[1]).None? || HexValue(s[2]).None? then None
    else match PctDecode(s[3..])
      case None => None
      case Some(rest) => Some([(16 * HexValue(s[1]).value + HexValue(s[2]).value) as Byte] + rest)
  }

  /** Decodes `%` groups of one or two hexadecimal digits, as `EscapeBytes`
      writes them; a group ends at the next `%` or after two digits. */
  function DecodeEscapes(s: string): Option<seq<Byte>>
    decreases |s|
  {
    if |s| == 0 then Some([])
    else if |s| < 2 || s[0] != '%' || HexValue(s[1]).None? then None
    else if |s| >= 3 && HexValue(s[2]).Some? then
      match DecodeEscapes(s[3..])
      case None => None
      case Some(rest) => Some([(16 * HexValue(s[1]).value + HexValue(s[2]).value) as Byte] + rest)
    else
      match DecodeEscapes(s[2..])
      case None => None
      case Some(rest) => Some([HexValue(s[1]).value as Byte] + rest)
  }

  /** A one-digit group followed by the next group (or nothing). */
  lemma DecodeShortGroup(b: Byte, tail: string)
    requires b < 16 && DecodeEscapes(tail).Some?
    requires |tail| == 0 || tail[0] == '%'
    ensures DecodeEscapes("%" + ShortHex(b) + tail) == Some([b] + DecodeEscapes(tail).value)
  {
    var s := "%" + ShortHex(b) + tail;
    HexValueOfDigit(b as int);
    assert s[1] == HexDigit(b as int) && s[2..] == tail;
    assert |s| == 2 || s[2] == '%';
    assert HexValue('%').None?;
  }

  /** A two-digit group followed by anything decodable. */
  lemma DecodeLongGroup(b: Byte, tail: string)
    requires b >= 16 && DecodeEscapes(tail).Some?
    ensures DecodeEscapes("%" + ShortHex(b) + tail) == Some([b] + DecodeEscapes(tail).value)
  {
    var s := "%" + ShortHex(b) + tail;
    var hi, lo := b as int / 16, b as int % 16;
    HexValueOfDigit(hi);
    HexValueOfDigit(lo);
    assert s[1] == HexDigit(hi) && s[2] == HexDigit(lo) && s[3..] == tail;
    assert (16 * hi + lo) as Byte == b;
  }

  /** The unpadded escapes lose nothing: the byte string comes back. */
  lemma {:induction false} EscapeBytesRoundTrip(bs: seq<Byte>)
    ensures DecodeEscapes(EscapeBytes(bs)) == Some(bs)
    decreases |bs|
  {
    if |bs| > 0 {
      EscapeBytesRoundTrip(bs[1..]);
      if bs[0] < 16 {
        DecodeShortGroup(bs[0], EscapeBytes(bs[1..]));
      } else {
        DecodeLongGroup(bs[0], EscapeBytes(bs[1..]));
      }
      assert bs == [bs[0]] + bs[1..];
    }
  }

  /** When every byte is at least 0x10 the unpadded escapes are exactly the
      two-digit triplets of RFC 3986. */
  lemma {:induction false} EscapeBytesAreTriplets(bs: seq<Byte>)
    requires forall i :: 0 <= i < |bs| ==> bs[i] >= 16
    ensures EscapeBytes(bs) == PctEncode(bs)
    decreases |bs|
  {
    if |bs| > 0 {
      EscapeBytesAreTriplets(bs[1..]);
    }
  }

  /** One triplet decodes to its byte in front of whatever follows it. */
  lemma DecodeTriplet(b: Byte, tail: string)
    requires PctDecode(tail).Some?
    ensures PctDecode(Triplet(b) + tail) == Some([b] + PctDecode(tail).value)
  {
    var s := Triplet(b) + tail;
    HexValueOfDigit(b as int / 16);
    HexValueOfDigit(b as int % 16);
    assert s[1] == HexDigit(b as int / 16) && s[2] == HexDigit(b as int % 16) && s[3..] == tail;
    assert (16 * (b as int / 16) + b as int % 16) as Byte == b;
  }

  /** Decoding the triplets gives the bytes back. */
  lemma {:induction false} PctRoundTrip(bs: seq<Byte>)
    ensures PctDecode(PctEncode(bs)) == Some(bs)
    decreases |bs|
  {
    if |bs| > 0 {
      PctRoundTrip(bs[1..]);
      DecodeTriplet(bs[0], PctEncode(bs[1..]));
      assert bs == [bs[0]] + bs[1..];
    }
  }

  /** The characters `encodeURIComponent` leaves as they are (named
      `uriUnreserved` in older editions of ECMA-262): letters, digits and
      `-_.!~*'()`. */
  predicate IsUriUnreserved(c: char) {
    || 'A' <= c <= 'Z' || 'a' <= c <= 'z' || '0' <= c <= '9'
    || c == '-' || c == '_' || c == '.' || c == '!' || c == '~' || c == '*'
    || c == '\'' || c == '(' || c == ')'
  }

  /** UTF-8 bytes of a code point (what `encodeURIComponent` escapes). */
  function Utf8(c: char): (r: seq<Byte>)
    ensures c as int < 128 ==> r == [c as int as Byte]
    ensures c as int >= 128 ==> 2 <= |r| <= 4 && forall i :: 0 <= i < |r| ==> r[i] >= 128
  {
    var n := c as int;
    if n < 0x80 then [n as Byte]
    else if n < 0x800 then [(0xC0 + n / 64) as Byte, (0x80 + n % 64) as Byte]
    else if n < 0x10000 then
      [(0xE0 + n / 4096) as Byte, (0x80 + (n / 64) % 64) as Byte, (0x80 + n % 64) as Byte]
    else
      [(0xF0 + n / 262144) as Byte, (0x80 + (n / 4096) % 64) as Byte,
       (0x80 + (n / 64) % 64) as Byte, (0x80 + n % 64) as Byte]
  }

  /** `encodeURIComponent` of ECMA-262: unreserved characters stay, every
      other code point becomes the triplets of its UTF-8 bytes. */
  function EncodeUriComponent(s: string): (r: string)
    ensures forall i :: 0 <= i < |r| ==> IsUriUnreserved(r[i]) || r[i] == '%'
  {
    if |s| == 0 then ""
    else
      var head := if IsUriUnreserved(s[0]) then [s[0]] else PctEncode(Utf8(s[0]));
      assert forall i :: 0 <= i < |head| ==> IsUriUnreserved(head[i]) || head[i] == '%';
      head + EncodeUriComponent(s[1..])
  }

  /** `isNonASCII`: `charCodeAt(0) > 127`. For a code point above U+FFFF the
      first code unit is a surrogate, above 127 as well. These are exactly
      the characters UTF-8 writes with more than one byte. */
  function IsNonAscii(c: char): (r: bool)
    ensures r <==> |Utf8(c)| > 1
  {
    c as int > 127
  }

  /** One loop iteration of `customURLEncode`. */
  function EncodeChar(eucKr: char -> seq<Byte>, c: char): (r: string)
    ensures forall i :: 0 <= i < |r| ==> IsUriUnreserved(r[i]) || r[i] == '%'
  {
    if IsNonAscii(c) then EscapeBytes(eucKr(c)) else EncodeUriComponent([c])
  }

  /** `customURLEncode`. Its output never holds `&`, `=`, `#`, `"`, a space
      or any other character outside the unreserved set and `%`, so it stays
      inside one query parameter of the download URL. */
  function CustomUrlEncode(eucKr: char -> seq<Byte>, s: string): (r: string)
    ensures forall i :: 0 <= i < |r| ==> IsUriUnreserved(r[i]) || r[i] == '%'
  {
    if |s| == 0 then "" else EncodeChar(eucKr, s[0]) + CustomUrlEncode(eucKr, s[1..])
  }

  /** The encoding works code point by code point. */
  lemma {:induction false} CustomUrlEncodeConcat(eucKr: char -> seq<Byte>, a: string, b: string)
    ensures CustomUrlEncode(eucKr, a + b) == CustomUrlEncode(eucKr, a) + CustomUrlEncode(eucKr, b)
    decreases |a|
  {
    if |a| == 0 {
      assert a + b == b;
    } else {
      assert (a + b)[0] == a[0] && (a + b)[1..] == a[1..] + b;
      CustomUrlEncodeConcat(eucKr, a[1..], b);
    }
  }

  /** On pure-ASCII input the result is exactly `encodeURIComponent`'s,
      whatever the EUC-KR table says. */
  lemma {:induction false} AsciiIsEncodeUriComponent(eucKr: char -> seq<Byte>, s: string)
    requires forall i :: 0 <= i < |s| ==> !IsNonAscii(s[i])
    ensures CustomUrlEncode(eucKr, s) == EncodeUriComponent(s)
    decreases |s|
  {
    if |s| > 0 {
      AsciiIsEncodeUriComponent(eucKr, s[1..]);
      assert [s[0]][1..] == [];
      assert EncodeChar(eucKr, s[0]) == EncodeUriComponent([s[0]]);
    }
  }

  /** A non-ASCII code point becomes one `%` group per EUC-KR byte: the
      groups decode back to exactly the table's bytes, and when every byte
      is at least 0x10 (as for every EUC-KR double-byte character) they are
      the standard two-digit triplets. */
  lemma NonAsciiCharIsEucKrEscaped(eucKr: char -> seq<Byte>, c: char)
    requires IsNonAscii(c)
    ensures DecodeEscapes(EncodeChar(eucKr, c)) == Some(eucKr(c))
    ensures (forall i :: 0 <= i < |eucKr(c)| ==> eucKr(c)[i] >= 16) ==>
      PctDecode(EncodeChar(eucKr, c)) == Some(eucKr(c))
  {
    EscapeBytesRoundTrip(eucKr(c));
    if forall i :: 0 <= i < |eucKr(c)| ==> eucKr(c)[i] >= 16 {
      EscapeBytesAreTriplets(eucKr(c));
      PctRoundTrip(eucKr(c));
    }
  }
}
